=== FILE: README.md ===
# AC rule engine of the ESP32 air-conditioner controller, in Dafny

This project models the decision core of an ESP32 firmware that reads the room temperature,
evaluates user-defined scheduling rules, and drives an air conditioner over infrared. It also
models three smaller state machines next to that core.

- **Rule engine** (`config.dfy`, `ac_control.dfy`, `default_rules.dfy`). A rule (`ACRule`) has
  a time window, a temperature window and a target configuration. The sentinel -1 on an hour
  and -999 on a temperature bound mean "any". One iteration of the control task is the pure
  function `ACControl.Step(engine, hour, reading)`. It returns the new engine state and the
  transmissions made (`ApplyOn(tuple)` or `PowerOff`). The reading is `Option<real>`, and
  `None` stands for a NaN sensor value. The engine scans the rules in storage order, skips
  disabled ones, and stops at the first rule whose time window and inclusive temperature
  window both hold. It transmits only when the rule's six-field tuple (power, `uint8_t` set
  temperature, fan, mode, vertical swing, horizontal swing) differs from the tracked one.
  When nothing matches, the unit is turned off once if it is tracked as on. The seed rules of
  `initDefaultRules` get their own lemmas.
- **Learned IR codes** (`ir_control.dfy`). This covers the 14-slot code map and its mirror
  in flash under per-button keys, the readiness rule, the step-by-step learning wizard (start,
  advance on an accepted code or a 30 s timeout, stop after the last button), and the button
  choice of `applyACSetting`.
- **Task lifecycle** (`task_manager.dfy`). These are the STOPPED/STARTING/RUNNING/STOPPING
  transitions of starting and stopping the calibration and control tasks. Whether the RTOS
  created the task is an input.
- **Deprecated Gree helpers** (`gree_legacy.dfy`). This covers the temperature clamp, the fan
  and mode encodings with their inverses, timer rounding, the legacy-setting conversion, and
  the "initialized" guard on every setter.

`ctypes.dfy` writes out the C integer narrowings the firmware relies on: `int` to `uint8_t`
modulo 256, the `float` to `uint8_t` cast, and 32-bit `millis()` differences.
`wrappers.dfy` holds `Option`. `ac_setting.dfy` holds the two-field legacy setting record.

Behaviour of the firmware worth noting, which the model follows:

- The code has no debug/force-transmit flag. There is no lock either, and the firmware has
  no rule create/update/delete or sort operation.
- The code writes `currentTemp` before its NaN check. A skipped cycle therefore still stores
  the NaN (`None`). It leaves `previousACState` and `activeRuleId` untouched.
- The loop decides "no match" by testing `activeRuleId == -1`. It does not keep a found
  flag. So a matching rule whose id is -1 and that turns the unit on gets applied and then
  switched off in the same cycle (`ACControl.SentinelIdRuleIsTurnedOffAgain`). Idempotence
  (`ACControl.StepIdempotent`) therefore assumes no rule id equals -1. Real ids start at 1.
- The seed rule "Turn Off When Cool" has fan 1, but the boot tuple has fan 0. So the first
  time this rule governs after boot, it transmits a power-off even though the unit is tracked
  as off.
- `mode` is an uninterpreted integer in the engine. The rule comment documents 0 = cool. The
  deprecated Gree encoding uses 0 = auto and 1 = cool.
- `IRLearningState` as declared lacks the `isReadyForControl` field that the implementation
  uses. The model includes it.

## Model

| member | source | states |
|---|---|---|
| `Config.InitialGlobals` | src/config.cpp:14-19 | at boot the rule table is empty (so it fits the 10-slot array) and no rule is active (-1) |
| `Config.DefaultRules` | src/config.cpp:24-72 | the seed set has three rules with ids 1, 2, 3 at indices 0, 1, 2; all are enabled, the ids are unique, and every field is within its documented range |
| `Config.InitDefaultRules` | src/config.cpp:22-75 | seeding makes the table exactly "Cool Day", "Cool Night", "Turn Off When Cool" in that order, with ids 1, 2, 3, all enabled and unique; it changes neither the active rule id nor the stored temperature |
| `ACControl.InitialEngine` | src/ac_control.cpp:12 | at boot the tracker holds {off, 24, fan 0, mode 0, swings 0/0}, the rule table is empty and no rule is active |
| `ACControl.HasChanged` | src/ac_control.cpp:15-22 | the change test is false exactly when all six tracked fields equal the candidate, so one differing field makes it true |
| `ACControl.UpdatePreviousACState` | src/ac_control.cpp:25-32 | after an update the committed tuple no longer counts as a change, and the rule table is untouched |
| `ACControl.GetCurrentACState` | src/ac_control.cpp:35-37 | the reported state is the tracked one: comparing it with the tracker shows no change |
| `ACControl.CommitThenUnchanged` | src/ac_control.cpp:25-37 | after committing x, `getCurrentACState` returns x, x is not a change, and any other tuple is |
| `ACControl.TempMatches` | src/ac_control.cpp:86-91 | the temperature test is the closed window [minTemp, maxTemp], and a -999 bound drops that side |
| `ACControl.TempWindowInclusive` | src/ac_control.cpp:86-91 | with both bounds set, a reading matches iff min <= t <= max, and both end points match |
| `ACControl.TimeMatchesIsClockArc` | src/ac_control.cpp:75-83 | for concrete hours 0..23, the time test (`TimeMatches`, the same-day/overnight comparison) is exactly the stretch of the clock face walked forward from start to end, and equal ends cover the whole day |
| `ACControl.UnconstrainedTimeWindows` | src/ac_control.cpp:75-83 | in the time test (`TimeMatches`), a -1 on either hour, or start == end, makes every hour match |
| `ACControl.FirstMatchFrom` | src/ac_control.cpp:68-95 | the scan returns a matching index with no match between the start and it, or reports that no index from the start matches |
| `ACControl.SelectRule` | src/ac_control.cpp:68-137 | the selected index is the first enabled rule in storage order that passes both tests; no selection means no rule passes |
| `ACControl.FirstMatchUnique` | src/ac_control.cpp:137 | there is only one first match, so a later, more specific rule never wins |
| `ACControl.DisabledRulesIgnored` | src/ac_control.cpp:69 | removing every disabled rule from the table selects the same rule |
| `ACControl.Target` | src/ac_control.cpp:101-103 | the tracked tuple of a rule keeps power and swings; the set temperature is truncated to its integer part and fan/mode are narrowed to `uint8_t`, which changes no value in range |
| `ACControl.CommandFor` | src/ac_control.cpp:105-128 | a rule that turns the unit on transmits its full tuple; any other rule transmits a power-off |
| `ACControl.ApplyFirstMatch` | src/ac_control.cpp:94-138 | the matching phase never changes the rule table; with no match it changes nothing and sends nothing; with a first match the rule's id becomes active, its tuple becomes the tracked state, and its command is sent only if that tuple differs from the previous one |
| `ACControl.OffIfNothingActive` | src/ac_control.cpp:141-153 | while no rule is active and the unit is tracked as on, one power-off is appended and the tracker resets to {off, 24, 0, 0, 0, 0}; otherwise nothing changes |
| `ACControl.Step` | src/ac_control.cpp:47-159 | a NaN reading skips the cycle and keeps the tracker and active id. A first match (id not -1) becomes the active rule, its tuple is tracked afterwards, and it is transmitted only if it differs. With no match the active id is -1, and one power-off plus a reset happen only if power was on |
| `ACControl.StepIdempotent` | src/ac_control.cpp:101-153 | repeating a cycle with the same hour and reading transmits nothing and changes nothing |
| `ACControl.SentinelIdRuleIsTurnedOffAgain` | src/ac_control.cpp:95-149 | a matching rule with id -1 that turns the unit on is transmitted and then followed by the no-match power-off in the same cycle |
| `ACControl.StepKeepsTableFitting` | include/config.h:49-54 | a cycle keeps the rule count within `MAX_RULES` |
| `DefaultRules.SeededEngine` | src/config.cpp:22-75 | the seeded engine holds exactly the seed rules, with the boot tracker and no active rule |
| `DefaultRules.DayNightPartition` | src/config.cpp:28-46 | every hour 0..23 lies in exactly one of the 8-19 day window and the 19-8 overnight window |
| `DefaultRules.GapReadingMatchesNothing` | src/config.cpp:30-65 | a reading strictly between 25.9 and 26.0 matches no seed rule, so exactly one power-off is sent if the unit was on, and nothing otherwise |
| `DefaultRules.SeedCoversEverythingButTheGap` | src/config.cpp:24-72 | outside that gap some seed rule governs every valid hour |
| `DefaultRules.HotDayScenario` | src/config.cpp:24-38 | at 10:00 and 27.0, "Cool Day" governs and {on, 27, fan 3, mode 0, swings 0/0} is sent from boot |
| `DefaultRules.HotNightScenario` | src/config.cpp:41-55 | at 23:00 and 27.0, "Cool Night" governs and {on, 28, fan 1, mode 0, swings 2/2} is sent |
| `DefaultRules.CoolScenarios` | src/config.cpp:58-72 | at 14:00 and 25.0, and at 03:00 and 10.0, "Turn Off When Cool" governs; in both cases the first such cycle after boot sends a power-off |
| `IRControl.Ordinal` | include/ir_control.h:12-27 | every button's enum value is below 14 |
| `IRControl.ButtonAt` | include/ir_control.h:12-27 | casting an int names a button exactly for 0..13, and that button's enum value is the int |
| `IRControl.GetCodeAfterLoad` | src/ir_control.cpp:55-109 | after a load, `getIRCodeForButton` (`GetCode`) returns the value stored under that button's own key, or "" when the key is missing |
| `IRControl.PutCode` | src/ir_control.cpp:136-152 | after saving code c for button b, the slot of b reads c and every other slot is unchanged |
| `IRControl.CountLearned` | src/ir_control.cpp:72-89 | the learned count equals the number of buttons with a non-empty code, so it lies in 0..14 |
| `IRControl.EveryButtonLearned` | src/ir_control.cpp:72-89 | a learned count of 14 means every button's slot is non-empty |
| `IRControl.CountAfterPut` | src/ir_control.cpp:131-155 | a save changes the learned count by exactly the change in that one slot |
| `IRControl.PrefsKey` | src/ir_control.cpp:111-129 | every button has a non-empty storage key |
| `IRControl.LoadAllIRCodes` | src/ir_control.cpp:55-70 | each slot is loaded from its own button's key, and a missing key gives "" |
| `IRControl.StoreThenLoad` | src/ir_control.cpp:131-152 | writing one button's key and reloading gives the same map as the in-memory save, because distinct buttons have distinct keys |
| `IRControl.ReadyIsEssentialCodes` | src/ir_control.cpp:275-283 | the readiness test (`Ready`) holds iff POWER_ON, POWER_OFF, TEMP_UP and TEMP_DOWN are all learned and at least one of FAN_LOW, FAN_MED, FAN_HIGH is |
| `IRControl.ReadyNeedsFiveCodes` | src/ir_control.cpp:275-283 | a ready map has at least five learned codes |
| `IRControl.LearningKeepsReadiness` | src/ir_control.cpp:275-283 | saving a non-empty code never makes a ready system unready |
| `IRControl.UpdateReadiness` | src/ir_control.cpp:275-284 | the readiness flag holds iff both power codes, both temperature codes and at least one fan code are learned; the learned count is refreshed; nothing else changes |
| `IRControl.InitIR` | src/ir_control.cpp:31-53 | initialisation keeps the given flash contents and loads the map from them (`LoadAllIRCodes` of that flash), and yields a consistent state: statistics and readiness up to date, 14 buttons, wizard off at the first button |
| `IRControl.SaveIRCodeForButton` | src/ir_control.cpp:131-158 | a save always stores the code in the button's slot, leaves the other slots alone, keeps the state consistent, and does not move the wizard |
| `IRControl.SaveAtCursor` | src/ir_control.cpp:131-133 | the wizard's save stores into the button under the cursor; a cursor past the enum has an empty key, so nothing happens |
| `IRControl.SendIRButton` | src/ir_control.cpp:171-184 | a code is sent iff the system is ready and the slot is non-empty, and the code sent is the slot's code |
| `IRControl.StartIRLearning` | src/ir_control.cpp:186-194 | starting turns learning on at the first button with a fresh step timer and keeps consistency |
| `IRControl.StopIRLearning` | src/ir_control.cpp:196-202 | stopping turns learning off and refreshes the learned count |
| `IRControl.MoveToNextLearningStep` | src/ir_control.cpp:232-246 | each advance moves the cursor by one; learning stays on iff the new cursor is below `totalButtons`, and then the step timer restarts at the current time |
| `IRControl.ProcessIRLearning` | src/ir_control.cpp:204-230 | when not learning it returns false and changes nothing. A step older than 30000 ms, with 32-bit wrap, advances without saving and restarts the step timer. Within the time limit an accepted code (longer than 2, not "FFFFFFFF") is saved into the cursor's button, every other slot keeps its code, and the step advances with the step timer restarted; anything else leaves the state unchanged |
| `IRControl.RepeatAndNoiseIgnored` | src/ir_control.cpp:216-226 | within the time limit, the repeat code "FFFFFFFF" and any code of at most two characters (`AcceptableCode` fails) are reported handled and change nothing |
| `IRControl.WizardVisitsEveryButton` | src/ir_control.cpp:186-246 | from a fresh start, after k advances the cursor is k; learning is on iff k < 14, so the wizard ends right after the 14th button |
| `IRControl.ButtonsFor` | src/ir_control.cpp:255-266 | TEMP_UP is chosen iff temp > 24 and TEMP_DOWN iff temp < 20; FAN_LOW/MED/HIGH iff wind is 1/2/3; exactly one button per chosen kind, the temperature button before the fan button, none of any other kind |
| `IRControl.LearnedCodes` | src/ir_control.cpp:171-184 | the reference sequence of learned codes among a list of buttons has one entry per learned slot, none of them empty |
| `IRControl.SendAll` | src/ir_control.cpp:171-184 | pressing buttons in sequence sends nothing when not ready; when ready it sends exactly the learned codes of the buttons, in order, skipping the unlearned ones, so their number is the learned count |
| `IRControl.ApplyACSetting` | src/ir_control.cpp:248-269 | applying a setting sends nothing when not ready; when ready it sends exactly the learned codes of the selected buttons, in order; when all selected buttons are learned it sends one code per button; on any ready system a temperature outside 20..24 sends the TEMP_UP/TEMP_DOWN code first |
| `IRControl.FiveCodeMapRaisesTemperature` | src/ir_control.cpp:255-266 | with only the five essential codes learned, a 30.0 setting with wind 0 sends the TEMP_UP code alone |
| `TaskManager.NewManager` | src/task_manager.cpp:12-25 | both tasks start stopped with null handles |
| `TaskManager.StartTask` | src/task_manager.cpp:28-53 | a start is refused with no change unless the task is stopped; on creation it ends running with the new handle; on failure it ends stopped with a null handle (with the start time stamped) and reports false |
| `TaskManager.StopTask` | src/task_manager.cpp:55-70 | a stop always reports true and ends stopped; a stopped task is left exactly as it was, including the end time; any other task gets a null handle and the stop time |
| `TaskManager.StartCalibrationTask` | src/task_manager.cpp:28-53 | the calibration start succeeds iff the task was stopped and creation succeeded, and then holds the new handle; a failed creation leaves it stopped with a null handle and the start time stamped; it never touches the control task |
| `TaskManager.StopCalibrationTask` | src/task_manager.cpp:55-70 | the calibration stop always succeeds and is a no-op on a stopped task; any other task ends with a null handle and the stop time as its end time |
| `TaskManager.StartControlTask` | src/task_manager.cpp:77-110 | the control start is refused with no change unless the task is stopped and IR is ready; otherwise it behaves like a start with creation as input |
| `TaskManager.StopControlTask` | src/task_manager.cpp:112-128 | the control stop always succeeds and is a no-op on a stopped task; any other task ends with a null handle and the stop time as its end time |
| `TaskManager.TaskExited` | src/task_manager.cpp:214 | a task body that returns marks itself stopped but keeps its handle |
| `TaskManager.IsAnyTaskRunning` | src/task_manager.cpp:173-176 | true iff the calibration task is running or starting |
| `TaskManager.ControlRunningLifecycle` | src/task_manager.cpp:134-136 | `isControlTaskRunning` (`IsControlTaskRunning`) is false for a new manager and after any stop, and after a start request it is true iff the task was already running or the start succeeded |
| `TaskManager.ControlTaskNotConsulted` | src/task_manager.cpp:173-176 | the control task's state never affects `isAnyTaskRunning` |
| `TaskManager.CleanupFinishedTasks` | src/task_manager.cpp:162-171 | cleanup nulls exactly the handles of stopped tasks and never changes a state |
| `TaskManager.StateString` | src/task_manager.cpp:178-186 | the four states map to "stopped", "starting", "running" and "stopping", and each string identifies its state |
| `TaskManager.StopAndCleanupIdempotent` | src/task_manager.cpp:55-171 | stopping a second time, even later, and cleaning up a second time change nothing |
| `TaskManager.StartThenStop` | src/task_manager.cpp:77-128 | after any control start attempt, a stop leaves the task stopped with a null handle; a successful start and stop record both times, and a failed start keeps the old end time |
| `GreeLegacy.ClampTemp` | deprecated/ir_control_old.cpp:101-102 | the clamped temperature lies in 16..30 and equals the input whenever the input already does |
| `GreeLegacy.ClampIdempotentMonotone` | deprecated/ir_control_old.cpp:101-102 | clamping twice equals clamping once, and clamping preserves order |
| `GreeLegacy.SpeedOfFan` | deprecated/ir_control_old.cpp:129-137 | a fan speed read back is always 0..3 |
| `GreeLegacy.FanForSpeed` | deprecated/ir_control_old.cpp:112-127 | speeds 0..3 survive set-then-get, and other speeds select auto |
| `GreeLegacy.FanRoundTrip` | deprecated/ir_control_old.cpp:116-136 | every register fan value survives get-then-set, and out-of-range speeds read back as auto (0) |
| `GreeLegacy.CodeOfMode` | deprecated/ir_control_old.cpp:157-166 | a mode read back is always 0..4 |
| `GreeLegacy.ModeForCode` | deprecated/ir_control_old.cpp:139-155 | modes 0..4 survive set-then-get, and other codes select cool |
| `GreeLegacy.ModeRoundTrip` | deprecated/ir_control_old.cpp:143-165 | every register mode survives get-then-set, and out-of-range codes read back as cool (1) |
| `GreeLegacy.TimerHoursAsWritten` | deprecated/ir_control_old.cpp:193-194 | the as-written hour count is at most 24; while (minutes + 30) / 60 fits a byte it is the nearest hour capped at 24; past that the count is taken modulo 256 and then capped at 24, so it is the nearest hour to the minutes left after removing whole multiples of 256 hours when that is at most 24, and 24 otherwise |
| `GreeLegacy.TimerHoursAsWrittenWraps` | deprecated/ir_control_old.cpp:193-194 | the as-written rounding gives 24 hours for 1440 minutes but 0 hours for 15330 minutes |
| `GreeLegacy.TimerHours` | deprecated/ir_control_old.cpp:193-194 | the corrected rounding (cap without wrap): at most 24, the nearest hour when that is at most 24, and 24 otherwise |
| `GreeLegacy.TimerHoursMonotone` | deprecated/ir_control_old.cpp:193-194 | more minutes never give fewer hours |
| `GreeLegacy.TimerHoursAgreeBelowWrap` | deprecated/ir_control_old.cpp:193-194 | below 15330 minutes the as-written and the corrected rounding agree |
| `GreeLegacy.WindToFanSpeed` | deprecated/ir_control_old.cpp:290-297 | wind 1, 2, 3 map to themselves, 4 and 5 map to 3, and exactly the other values map to 0 |
| `GreeLegacy.ConvertToGreeSettings` | deprecated/ir_control_old.cpp:283-305 | the conversion is always power on, mode 1, no swings and timer 0, with the converted fan level and the temperature truncated to its integer part |
| `GreeLegacy.NewController` | deprecated/ir_control_old.cpp:57-59 | a new controller is uninitialized and has sent nothing |
| `GreeLegacy.Init` | deprecated/ir_control_old.cpp:61-79 | init sets the flag and writes the register {off, 24, fan auto, cool, no swing} without sending |
| `GreeLegacy.SendCommand` | deprecated/ir_control_old.cpp:239-243 | once initialized, a send appends the current register to the log; before that nothing happens; the initialized flag is kept |
| `GreeLegacy.ReadyExactlyAfterInit` | deprecated/ir_control_old.cpp:245-247 | `isReady` (`IsReady`) is false for a new controller and true after init, and a send transmits exactly when the controller is ready |
| `GreeLegacy.PowerOn` | deprecated/ir_control_old.cpp:81-86 | power-on sets the power bit and sends once; it is a no-op before init; the initialized flag is kept |
| `GreeLegacy.PowerOff` | deprecated/ir_control_old.cpp:88-93 | power-off clears the power bit and sends once; it is a no-op before init; the initialized flag is kept |
| `GreeLegacy.SetTemperature` | deprecated/ir_control_old.cpp:99-106 | only the temperature field changes, to the clamped value, and nothing is sent; it is a no-op before init; the initialized flag is kept |
| `GreeLegacy.SetFanSpeed` | deprecated/ir_control_old.cpp:112-127 | only the fan field changes, to the encoded speed; it is a no-op before init; the initialized flag is kept |
| `GreeLegacy.GetFanSpeed` | deprecated/ir_control_old.cpp:129-137 | the speed read back is 0..3 and encodes back to the register's fan value |
| `GreeLegacy.SetMode` | deprecated/ir_control_old.cpp:139-155 | only the mode field changes, to the encoded mode; it is a no-op before init; the initialized flag is kept |
| `GreeLegacy.GetMode` | deprecated/ir_control_old.cpp:157-166 | the mode read back is 0..4 and encodes back to the register's mode |
| `GreeLegacy.SetSwingV` | deprecated/ir_control_old.cpp:168-173 | only the vertical swing flag changes; it is a no-op before init; the initialized flag is kept |
| `GreeLegacy.SetSwingH` | deprecated/ir_control_old.cpp:175-180 | only the horizontal swing flag changes; it is a no-op before init; the initialized flag is kept |
| `GreeLegacy.SetTimer` | deprecated/ir_control_old.cpp:190-200 | an hour count is produced iff the controller is initialized; it is the as-written rounding, wrap included (0 hours at 15330 minutes), which equals the corrected rounding whenever (minutes + 30) / 60 fits a byte |
| `GreeLegacy.ApplyGreeSettings` | deprecated/ir_control_old.cpp:213-237 | before init nothing happens. Once initialized, the register becomes the setting, with fan and mode encoded and the temperature unclamped; exactly one send follows; the timer is set iff it is positive, to the as-written hour count; the initialized flag is kept |
| `GreeLegacy.ApplySettings` | deprecated/ir_control_old.cpp:213-237 | before init the controller is untouched; after init exactly one command is sent, carrying the final register; the earlier send log is kept; the converted setting never sets a timer; the initialized flag is kept |
| `GreeLegacy.ApplySettingsEffect` | deprecated/ir_control_old.cpp:213-237 | applying a legacy setting leaves the unit on in cool mode (reads 1) with no swings and no timer; the fan reads back as the converted wind level, and exactly one command is sent |
| `GreeLegacy.NothingBeforeInit` | deprecated/ir_control_old.cpp:81-243 | before init every setter, the send and `applySettings` leave the controller unchanged |

## Left out

- Rule persistence: `saveRulesToSPIFFS`/`loadRulesFromSPIFFS` are declared (include/config.h:59-60) and not modelled; the control cycle only reads the table. The firmware has no rule create/update/delete or sort operation.
- The debug/force-transmit flag and the rule-table mutex: the code has neither.
- The FreeRTOS side: the endless loop, `vTaskDelay`, task creation and deletion, core pinning, and the task bodies. The model has one cycle or one transition per function. The one exception is the final state write of a task body (`TaskManager.TaskExited`).
- Hardware and vendor calls: the `greeAC` transmit calls of the control loop (including `setSwingVPosition`/`sendAllSettings`, which are not modelled), `irsend.sendNEC`, `strtoull`, IR decoding and `resultToHexidecimal`, and the SHT31 read. Each transmission is an abstract `Command`, a code string or a logged register. Readings, decoded codes, clock values and RTOS results are inputs.
- Wall-clock time, NTP and `localtime`: the hour is an input. Logging through `Serial` and `logToCloud` is omitted, as are the display names in `buttonNames`.
- `getTaskStatus`: it is JSON serialization of fields the model already holds.
- Floating point: temperatures are exact reals. For example, the seed bound 25.9 is taken exactly, where the firmware's `float` is slightly below it. NaN appears only as `None`.
- `CTypes.FloatToU8`: a C++ `float`-to-`uint8_t` cast is undefined outside 0..255. The model truncates and then wraps modulo 256, and states exact truncation only for values in range.
- `ACControl.TimeMatchesIsClockArc`: characterizes the time test only for hour fields and hours in 0..23, the documented range. Other values follow the code's comparisons as written.
- `ACControl.StepIdempotent`: assumes that no rule id equals -1. `ACControl.SentinelIdRuleIsTurnedOffAgain` shows why.
- The Gree library itself: its numeric constants (modelled as distinct enum values), its own temperature limits, the light/xfan/sleep/turbo bits and swing positions, `getTemperature`/`getSwingV`/`getSwingH`/`getStateString`, `getTimer` (always 0) and `clearTimer` (no effect).
- The rest of the deprecated file: its `initIR`/`applyACSetting`/`isIRReadyForControl` wrappers, its duplicated learning functions (deprecated/ir_control_old.cpp:309-545), and the spliced-in text that keeps it from compiling.
- `loadIRCode`/`saveIRCode`/`handleIRLearning`/`irLearningTask`: they are only declared.

## Findings

| source | as written | input that shows it | evidently intended | confidence | as-written member | corrected member |
|---|---|---|---|---|---|---|
| deprecated/ir_control_old.cpp:193-194 | the rounded hour count is stored in a `uint8_t` before it is capped at 24, so it wraps modulo 256 first | `setTimer(15330)`: (15330 + 30) / 60 = 256, stored as 0, so 0 hours instead of 24 | round to the nearest hour, then cap at 24 | medium; not executed | `GreeLegacy.TimerHoursAsWrittenWraps` | `GreeLegacy.TimerHours` |

`GreeLegacy.SetTimer` keeps the as-written rounding, because it models `setTimer` itself. Its hour count only feeds a log line, so no other member consumes either rounding.

=== FILE: ac_control.dfy ===
/** The rule-evaluation engine of the control task (src/ac_control.cpp): the state tracker
    that suppresses redundant transmissions, the time and temperature tests, first-match rule
    selection, and one iteration of the control loop as a pure step function. */
module ACControl {
  import opened Wrappers
  import opened CTypes
  import opened Config

  /** `activeRuleId` value meaning "no rule matched". */
  const NO_RULE: int := -1

  /** The tuple the tracker remembers: the last configuration transmitted to the unit. */
  datatype ACState = ACState(power: bool, temperature: uint8, fanSpeed: uint8, mode: uint8, vSwing: int, hSwing: int)

  /** {off, 24, 0, 0, 0, 0}: the tracker's value at boot and the reset target of the no-match path. */
  const DEFAULT_OFF_STATE: ACState := ACState(false, 24, 0, 0, 0, 0)

  /** What the control cycle hands to the transmitter. The vendor library calls themselves are
      not modelled; each value stands for one complete transmission. */
  datatype Command =
    | ApplyOn(setting: ACState)   // power on with temperature, fan, mode and both swings, then send
    | PowerOff                    // power off, then send

  /** The control task's state: the config globals plus `previousACState`. */
  datatype Engine = Engine(config: ConfigGlobals, previous: ACState)

  /** The outcome of one control cycle: the new state and the transmissions made, in order. */
  datatype Cycle = Cycle(engine: Engine, sent: seq<Command>)

  /** The engine at boot. */
  function InitialEngine(): (e: Engine)
    ensures |e.config.rules| == 0 && TableFits(e.config) && e.config.activeRuleId == NO_RULE
    ensures e.previous == ACState(false, 24, 0, 0, 0, 0)
  {
    Engine(InitialGlobals(), DEFAULT_OFF_STATE)
  }

  // ---------------------------------------------------------------------------------------
  // State tracker
  // ---------------------------------------------------------------------------------------

  /** `hasACStateChanged`: compares the six tracked fields one by one. */
  function HasChanged(previous: ACState, candidate: ACState): (changed: bool)
    ensures !changed <==> candidate == previous
  {
    || previous.power != candidate.power
    || previous.temperature != candidate.temperature
    || previous.fanSpeed != candidate.fanSpeed
    || previous.mode != candidate.mode
    || previous.vSwing != candidate.vSwing
    || previous.hSwing != candidate.hSwing
  }

  /** `getCurrentACState`. */
  function GetCurrentACState(e: Engine): (s: ACState)
    ensures !HasChanged(e.previous, s)
  {
    e.previous
  }

  /** `updatePreviousACState`: overwrites every tracked field and nothing else. */
  function UpdatePreviousACState(e: Engine, s: ACState): (e': Engine)
    ensures !HasChanged(GetCurrentACState(e'), s)
    ensures e'.config == e.config
  {
    e.(previous := s)
  }

  /** Committing a configuration makes it current and suppresses an immediate repeat of it. */
  lemma CommitThenUnchanged(e: Engine, s: ACState)
    ensures GetCurrentACState(UpdatePreviousACState(e, s)) == s
    ensures !HasChanged(GetCurrentACState(UpdatePreviousACState(e, s)), s)
    ensures forall s' :: HasChanged(GetCurrentACState(UpdatePreviousACState(e, s)), s') <==> s' != s
  {
  }

  // ---------------------------------------------------------------------------------------
  // Matching
  // ---------------------------------------------------------------------------------------

  /** The time test of the control loop: unconstrained if either hour is the sentinel, a
      same-day window `[start, end)` if `end > start`, otherwise an overnight window. */
  predicate TimeMatches(r: ACRule, hour: int) {
    if r.startHour != ANY_HOUR && r.endHour != ANY_HOUR then
      if r.endHour > r.startHour then r.startHour <= hour && hour < r.endHour
      else hour >= r.startHour || hour < r.endHour
    else true
  }

  /** The temperature test: the reading is rejected if it is below a constrained minimum or
      above a constrained maximum. */
  function TempMatches(r: ACRule, t: real): (m: bool)
    ensures m <==> (r.minTemp == ANY_TEMP || r.minTemp <= t) && (r.maxTemp == ANY_TEMP || t <= r.maxTemp)
  {
    var tooCold := r.minTemp != ANY_TEMP && t < r.minTemp;
    var tooHot := r.maxTemp != ANY_TEMP && t > r.maxTemp;
    !tooCold && !tooHot
  }

  /** A rule governs the cycle when it is enabled and both tests pass. */
  predicate Matches(r: ACRule, hour: int, t: real) {
    r.enabled && TimeMatches(r, hour) && TempMatches(r, t)
  }

  /** Hours from `from` forward on a 24-hour clock until `to` is reached. */
  function ClockDistance(from: int, to: int): (d: nat)
    ensures d < 24
  {
    (to - from) % 24
  }

  /** Reference reading of a concrete time window as a stretch of the clock face: starting at
      `start` and walking forward, the window covers the hours passed before `end` is reached;
      a window whose ends coincide covers the whole day. */
  predicate OnClockArc(start: int, end: int, hour: int) {
    start == end || ClockDistance(start, hour) < ClockDistance(start, end)
  }

  /** For concrete hours of the day, the firmware's two-branch time test is exactly the
      clock-face window. */
  lemma TimeMatchesIsClockArc(r: ACRule, hour: int)
    requires 0 <= r.startHour < 24 && 0 <= r.endHour < 24 && 0 <= hour < 24
    ensures TimeMatches(r, hour) <==> OnClockArc(r.startHour, r.endHour, hour)
  {
  }

  /** A sentinel on either hour makes the time test pass for every hour, and a concrete window
      whose ends coincide covers every hour as well. */
  lemma UnconstrainedTimeWindows(r: ACRule, hour: int)
    ensures r.startHour == ANY_HOUR || r.endHour == ANY_HOUR ==> TimeMatches(r, hour)
    ensures r.startHour == r.endHour ==> TimeMatches(r, hour)
  {
  }

  /** The temperature window is closed on both ends. */
  lemma TempWindowInclusive(r: ACRule, t: real)
    requires r.minTemp != ANY_TEMP && r.maxTemp != ANY_TEMP
    ensures TempMatches(r, t) <==> r.minTemp <= t <= r.maxTemp
    ensures r.minTemp <= r.maxTemp ==> TempMatches(r, r.minTemp) && TempMatches(r, r.maxTemp)
  {
  }

  /** `i` is the index the loop stops at: a matching rule with no matching rule before it. */
  predicate IsFirstMatch(rules: seq<ACRule>, hour: int, t: real, i: int) {
    && 0 <= i < |rules|
    && Matches(rules[i], hour, t)
    && forall j :: 0 <= j < i ==> !Matches(rules[j], hour, t)
  }

  /** No rule of the table governs the cycle. */
  predicate NoMatch(rules: seq<ACRule>, hour: int, t: real) {
    forall j :: 0 <= j < |rules| ==> !Matches(rules[j], hour, t)
  }

  /** The scan of the control loop from index `k` on, in storage order. */
  function FirstMatchFrom(rules: seq<ACRule>, hour: int, t: real, k: nat): (r: Option<nat>)
    requires k <= |rules|
    ensures r.Some? ==> k <= r.value < |rules| && Matches(rules[r.value], hour, t)
    ensures r.Some? ==> forall j :: k <= j < r.value ==> !Matches(rules[j], hour, t)
    ensures r.None? ==> forall j :: k <= j < |rules| ==> !Matches(rules[j], hour, t)
    decreases |rules| - k
  {
    if k == |rules| then None
    else if Matches(rules[k], hour, t) then Some(k)
    else FirstMatchFrom(rules, hour, t, k + 1)
  }

  /** Rule selection: the first enabled rule, in storage order, whose tests both pass. */
  function SelectRule(rules: seq<ACRule>, hour: int, t: real): (r: Option<nat>)
    ensures r.Some? ==> IsFirstMatch(rules, hour, t, r.value)
    ensures r.None? ==> NoMatch(rules, hour, t)
  {
    FirstMatchFrom(rules, hour, t, 0)
  }

  /** The first match is unique, so a later rule never wins over an earlier one, however
      specific it is. */
  lemma FirstMatchUnique(rules: seq<ACRule>, hour: int, t: real, i: int, j: int)
    requires IsFirstMatch(rules, hour, t, i) && IsFirstMatch(rules, hour, t, j)
    ensures i == j
  {
  }

  /** The rule selected, if any. */
  function SelectedRule(rules: seq<ACRule>, hour: int, t: real): Option<ACRule> {
    match SelectRule(rules, hour, t)
    case Some(i) => Some(rules[i])
    case None => None
  }

  /** The table with its disabled rules removed, order kept. */
  function EnabledOnly(rules: seq<ACRule>): (r: seq<ACRule>)
    ensures forall i :: 0 <= i < |r| ==> r[i].enabled
    ensures |r| <= |rules|
  {
    if |rules| == 0 then []
    else if rules[0].enabled then [rules[0]] + EnabledOnly(rules[1..])
    else EnabledOnly(rules[1..])
  }

  /** Selection looks at the head first and otherwise at the rest of the table. */
  lemma SelectedRuleCons(r: ACRule, rest: seq<ACRule>, hour: int, t: real)
    ensures SelectedRule([r] + rest, hour, t) == if Matches(r, hour, t) then Some(r) else SelectedRule(rest, hour, t)
  {
    var rules := [r] + rest;
    if Matches(r, hour, t) {
      assert IsFirstMatch(rules, hour, t, 0);
      FirstMatchUnique(rules, hour, t, SelectRule(rules, hour, t).value, 0);
    } else {
      match SelectRule(rest, hour, t)
      case Some(i) =>
        assert rules[i + 1] == rest[i];
        assert IsFirstMatch(rules, hour, t, i + 1) by {
          forall j | 0 <= j < i + 1
            ensures !Matches(rules[j], hour, t)
          {
            if j > 0 { assert rules[j] == rest[j - 1]; }
          }
        }
        FirstMatchUnique(rules, hour, t, SelectRule(rules, hour, t).value, i + 1);
      case None =>
        assert NoMatch(rules, hour, t) by {
          forall j | 0 <= j < |rules|
            ensures !Matches(rules[j], hour, t)
          {
            if j > 0 { assert rules[j] == rest[j - 1]; }
          }
        }
    }
  }

  /** Disabled rules never influence the decision: removing all of them selects the same rule. */
  lemma {:induction false} DisabledRulesIgnored(rules: seq<ACRule>, hour: int, t: real)
    ensures SelectedRule(EnabledOnly(rules), hour, t) == SelectedRule(rules, hour, t)
  {
    if |rules| > 0 {
      var r, rest := rules[0], rules[1..];
      assert rules == [r] + rest;
      DisabledRulesIgnored(rest, hour, t);
      SelectedRuleCons(r, rest, hour, t);
      if r.enabled {
        SelectedRuleCons(r, EnabledOnly(rest), hour, t);
      }
    }
  }

  // ---------------------------------------------------------------------------------------
  // One control cycle
  // ---------------------------------------------------------------------------------------

  /** The tuple a rule asks for, as the tracker sees it: the set temperature cast to `uint8_t`
      (truncated), fan and mode narrowed to `uint8_t`, swings kept as `int`. */
  function Target(r: ACRule): (s: ACState)
    ensures s.power == r.acOn && s.vSwing == r.vSwing && s.hSwing == r.hSwing
    ensures 0.0 <= r.setTemp < 256.0 ==> s.temperature as real <= r.setTemp < s.temperature as real + 1.0
    ensures 0 <= r.fanSpeed < 256 ==> s.fanSpeed == r.fanSpeed
    ensures 0 <= r.mode < 256 ==> s.mode == r.mode
  {
    ACState(r.acOn, FloatToU8(r.setTemp), IntToU8(r.fanSpeed), IntToU8(r.mode), r.vSwing, r.hSwing)
  }

  /** The transmission that applies a rule: full settings when the rule turns the unit on,
      otherwise a power-off. */
  function CommandFor(r: ACRule): (c: Command)
    ensures c.ApplyOn? <==> r.acOn
    ensures c.ApplyOn? ==> c.setting == Target(r)
  {
    if r.acOn then ApplyOn(Target(r)) else PowerOff
  }

  /** The matching part of a cycle, run on a table whose `activeRuleId` was reset: on a match,
      record the id and transmit and commit the rule's tuple only if it differs from the
      tracked one. */
  function ApplyFirstMatch(e: Engine, hour: int, t: real): (c: Cycle)
    ensures c.engine.config.rules == e.config.rules && c.engine.config.currentTemp == e.config.currentTemp
    ensures NoMatch(e.config.rules, hour, t) ==> c == Cycle(e, [])
    ensures forall i :: IsFirstMatch(e.config.rules, hour, t, i) ==>
              && c.engine.config.activeRuleId == e.config.rules[i].id
              && c.engine.previous == Target(e.config.rules[i])
              && c.sent == (if HasChanged(e.previous, Target(e.config.rules[i])) then [CommandFor(e.config.rules[i])] else [])
  {
    match SelectRule(e.config.rules, hour, t)
    case None => Cycle(e, [])
    case Some(i) =>
      var rule := e.config.rules[i];
      var target := Target(rule);
      var g := e.config.(activeRuleId := rule.id);
      if HasChanged(e.previous, target) then
        Cycle(UpdatePreviousACState(Engine(g, e.previous), target), [CommandFor(rule)])
      else
        Cycle(Engine(g, e.previous), [])
  }

  /** The fallback that runs while `activeRuleId` is still -1: turn the unit off and reset the
      tracker, but only if the tracked power is on. */
  function OffIfNothingActive(c: Cycle): (c': Cycle)
    ensures c'.engine.config == c.engine.config
    ensures c.engine.config.activeRuleId == NO_RULE && c.engine.previous.power ==>
              c'.engine.previous == DEFAULT_OFF_STATE && c'.sent == c.sent + [PowerOff]
    ensures c.engine.config.activeRuleId != NO_RULE || !c.engine.previous.power ==> c' == c
  {
    if c.engine.config.activeRuleId == NO_RULE && c.engine.previous.power then
      Cycle(UpdatePreviousACState(c.engine, DEFAULT_OFF_STATE), c.sent + [PowerOff])
    else c
  }

  /** One iteration of the control task for the hour of day and the sensor reading
      (`None` is a NaN reading). */
  function Step(e: Engine, hour: int, reading: Option<real>): (c: Cycle)
    ensures c.engine.config.rules == e.config.rules
    ensures c.engine.config.currentTemp == reading
    // an invalid reading skips the cycle before the active rule is reset
    ensures reading.None? ==>
              && c.sent == []
              && c.engine.previous == e.previous
              && c.engine.config.activeRuleId == e.config.activeRuleId
    // the first match governs: its tuple is tracked afterwards, transmitted only if new
    ensures reading.Some? ==> forall i | IsFirstMatch(e.config.rules, hour, reading.value, i) && e.config.rules[i].id != NO_RULE ::
              && c.engine.config.activeRuleId == e.config.rules[i].id
              && c.engine.previous == Target(e.config.rules[i])
              && c.sent == (if HasChanged(e.previous, Target(e.config.rules[i])) then [CommandFor(e.config.rules[i])] else [])
    // nothing matches: one power-off and a reset if the unit was on, otherwise nothing
    ensures reading.Some? && NoMatch(e.config.rules, hour, reading.value) ==>
              && c.engine.config.activeRuleId == NO_RULE
              && (e.previous.power ==> c.sent == [PowerOff] && c.engine.previous == DEFAULT_OFF_STATE)
              && (!e.previous.power ==> c.sent == [] && c.engine.previous == e.previous)
  {
    match reading
    case None => Cycle(e.(config := e.config.(currentTemp := None)), [])
    case Some(t) =>
      var reset := e.(config := e.config.(currentTemp := Some(t), activeRuleId := NO_RULE));
      var matched := ApplyFirstMatch(reset, hour, t);
      assert forall i | IsFirstMatch(e.config.rules, hour, t, i) :: SelectRule(e.config.rules, hour, t) == Some(i) by {
        forall i | IsFirstMatch(e.config.rules, hour, t, i)
          ensures SelectRule(e.config.rules, hour, t) == Some(i)
        {
          FirstMatchUnique(e.config.rules, hour, t, SelectRule(e.config.rules, hour, t).value, i);
        }
      }
      OffIfNothingActive(matched)
  }

  /** No rule id equals the "none" sentinel (ids are assigned from 1 upwards). */
  predicate IdsAreNotSentinel(rules: seq<ACRule>) {
    forall i :: 0 <= i < |rules| ==> rules[i].id != NO_RULE
  }

  /** Suppression is idempotent: repeating a cycle with the same hour and reading transmits
      nothing and leaves the engine as the first cycle left it. */
  lemma StepIdempotent(e: Engine, hour: int, t: real)
    requires IdsAreNotSentinel(e.config.rules)
    ensures Step(Step(e, hour, Some(t)).engine, hour, Some(t)).sent == []
    ensures Step(Step(e, hour, Some(t)).engine, hour, Some(t)).engine == Step(e, hour, Some(t)).engine
  {
  }

  /** The loop compares `activeRuleId` with -1 rather than remembering whether a rule matched,
      so a matching rule whose id is -1 that turns the unit on is applied and then immediately
      followed by the no-match power-off. */
  lemma SentinelIdRuleIsTurnedOffAgain(e: Engine, hour: int, t: real, i: nat)
    requires IsFirstMatch(e.config.rules, hour, t, i)
    requires e.config.rules[i].id == NO_RULE && e.config.rules[i].acOn
    requires HasChanged(e.previous, Target(e.config.rules[i]))
    ensures Step(e, hour, Some(t)).sent == [ApplyOn(Target(e.config.rules[i])), PowerOff]
    ensures Step(e, hour, Some(t)).engine.previous == DEFAULT_OFF_STATE
  {
  }

  /** A cycle never changes the rule table, so the table keeps fitting the fixed array. */
  lemma StepKeepsTableFitting(e: Engine, hour: int, reading: Option<real>)
    requires TableFits(e.config)
    ensures TableFits(Step(e, hour, reading).engine.config)
  {
  }
}

=== FILE: ac_setting.dfy ===
/** The legacy setting record consumed by `applyACSetting` and `convertToGreeSettings`
    (a target temperature and a wind level). The record's declaration is not modelled; its
    users read only these two fields. */
module ACSettings {

  datatype ACSetting = ACSetting(temp: real, wind: int)
}

=== FILE: config.dfy ===
/** The rule record, its sentinel conventions, the bounded rule table and the built-in seed
    rules of the controller (include/config.h and src/config.cpp). */
module Config {
  import opened Wrappers

  /** Size of the fixed `rules` array. */
  const MAX_RULES: nat := 10

  /** An hour bound equal to this value leaves the time window unconstrained. */
  const ANY_HOUR: int := -1

  /** A temperature bound equal to this value leaves that side of the window unconstrained. */
  const ANY_TEMP: real := -999.0

  /** One conditional directive: a time window, a temperature window and the AC action to take.
      `mode` stays an uninterpreted integer: its documented meaning (0 = cool) disagrees with the
      Gree helpers (0 = auto) and the engine only compares and forwards it. */
  datatype ACRule = ACRule(
    id: int,
    name: string,
    enabled: bool,
    startHour: int,
    endHour: int,
    minTemp: real,
    maxTemp: real,
    acOn: bool,
    setTemp: real,
    fanSpeed: int,
    mode: int,
    vSwing: int,
    hSwing: int)

  /** An hour field is either the sentinel or an hour of the day. */
  predicate HourFieldOk(h: int) {
    h == ANY_HOUR || 0 <= h <= 23
  }

  /** The documented ranges of a rule's fields: hours in 0..23 or -1, fan 0..3, mode 0..4,
      swing positions 0..3. The firmware itself never checks them. */
  predicate DocumentedRanges(r: ACRule) {
    && HourFieldOk(r.startHour)
    && HourFieldOk(r.endHour)
    && 0 <= r.fanSpeed <= 3
    && 0 <= r.mode <= 4
    && 0 <= r.vSwing <= 3
    && 0 <= r.hSwing <= 3
  }

  /** Rule ids are pairwise distinct. */
  predicate UniqueIds(rules: seq<ACRule>) {
    forall i, j :: 0 <= i < j < |rules| ==> rules[i].id != rules[j].id
  }

  /** The config globals: `rules[0..ruleCount)` (the sequence's length is `ruleCount`),
      `activeRuleId` (-1 for none) and the last value written to `currentTemp`
      (`None` for NaN). */
  datatype ConfigGlobals = ConfigGlobals(rules: seq<ACRule>, activeRuleId: int, currentTemp: Option<real>)

  /** The table never holds more rules than the array has slots. */
  predicate TableFits(g: ConfigGlobals) {
    |g.rules| <= MAX_RULES
  }

  /** The globals at boot, before any rules are seeded. */
  function InitialGlobals(): (g: ConfigGlobals)
    ensures TableFits(g) && |g.rules| == 0
    ensures g.activeRuleId == -1
  {
    ConfigGlobals([], -1, Some(0.0))
  }

  const COOL_DAY := ACRule(1, "Cool Day", true, 8, 19, 26.0, ANY_TEMP, true, 27.0, 3, 0, 0, 0)
  const COOL_NIGHT := ACRule(2, "Cool Night", true, 19, 8, 26.0, ANY_TEMP, true, 28.0, 1, 0, 2, 2)
  const TURN_OFF_WHEN_COOL := ACRule(3, "Turn Off When Cool", true, ANY_HOUR, ANY_HOUR, ANY_TEMP, 25.9, false, 24.0, 1, 0, 0, 0)

  /** The seed set written by `initDefaultRules`, in array order. */
  function DefaultRules(): (rules: seq<ACRule>)
    ensures |rules| == 3 <= MAX_RULES
    ensures forall i :: 0 <= i < |rules| ==> rules[i].id == i + 1 && rules[i].enabled
    ensures UniqueIds(rules)
    ensures forall i :: 0 <= i < |rules| ==> DocumentedRanges(rules[i])
  {
    [COOL_DAY, COOL_NIGHT, TURN_OFF_WHEN_COOL]
  }

  /** `initDefaultRules`: replaces the table by the seed set; nothing else changes. */
  function InitDefaultRules(g: ConfigGlobals): (g': ConfigGlobals)
    ensures TableFits(g') && g'.rules == [COOL_DAY, COOL_NIGHT, TURN_OFF_WHEN_COOL]
    ensures forall i :: 0 <= i < |g'.rules| ==> g'.rules[i].id == i + 1 && g'.rules[i].enabled
    ensures UniqueIds(g'.rules)
    ensures g'.activeRuleId == g.activeRuleId && g'.currentTemp == g.currentTemp
  {
    g.(rules := DefaultRules())
  }
}

=== FILE: ctypes.dfy ===
/** Fixed-width C integer types and the conversions the firmware performs between them.
    Dafny integers are unbounded, so every narrowing the firmware does is written out here. */
module CTypes {

  type uint8 = x: int | 0 <= x < 0x100
  type uint16 = x: int | 0 <= x < 0x1_0000
  type uint32 = x: int | 0 <= x < 0x1_0000_0000

  /** Truncation toward zero, as a C cast from floating point to an integer performs it. */
  function TruncTowardZero(x: real): (r: int)
    ensures 0.0 <= x ==> r as real <= x < r as real + 1.0
    ensures x < 0.0 ==> r as real - 1.0 < x <= r as real
  {
    if x >= 0.0 then x.Floor else -((-x).Floor)
  }

  /** Implicit conversion of a signed `int` to `uint8_t`: reduction modulo 256. */
  function IntToU8(x: int): (r: uint8)
    ensures (r - x) % 0x100 == 0
  {
    x % 0x100
  }

  /** The cast `(uint8_t)f` of a `float`. C++ defines it only when the truncated value is in
      0..255; outside that range the model wraps the truncated value modulo 256. */
  function FloatToU8(x: real): (r: uint8)
    ensures 0.0 <= x < 256.0 ==> r as real <= x < r as real + 1.0
  {
    IntToU8(TruncTowardZero(x))
  }

  /** `a - b` on 32-bit `unsigned long`, as `millis() - stepStartTime` computes it. */
  function ElapsedU32(now: uint32, start: uint32): (r: uint32)
    ensures start <= now ==> r == now - start
    ensures now < start ==> r == now + 0x1_0000_0000 - start
  {
    (now - start) % 0x1_0000_0000
  }
}

=== FILE: default_rules.dfy ===
/** How the control cycle behaves on the seed rule set of `initDefaultRules`. */
module DefaultRules {
  import opened Wrappers
  import opened Config
  import opened ACControl

  /** The engine right after boot with the seed rules loaded and the tracker at its default. */
  function SeededEngine(): (e: Engine)
    ensures e.config.rules == DefaultRules() && e.previous == DEFAULT_OFF_STATE
    ensures e.config.activeRuleId == NO_RULE
  {
    var boot := InitialEngine();
    boot.(config := InitDefaultRules(boot.config))
  }

  /** The day window 8-19 and the overnight window 19-8 split the day: every hour lies in
      exactly one of them. */
  lemma DayNightPartition(hour: int)
    requires 0 <= hour < 24
    ensures TimeMatches(COOL_DAY, hour) != TimeMatches(COOL_NIGHT, hour)
    ensures TimeMatches(COOL_DAY, hour) <==> 8 <= hour < 19
  {
  }

  /** A reading strictly between 25.9 and 26.0 satisfies no seed rule, so the no-match path runs:
      one power-off if the unit is tracked as on, otherwise nothing. */
  lemma GapReadingMatchesNothing(e: Engine, hour: int, t: real)
    requires e.config.rules == DefaultRules()
    requires 25.9 < t < 26.0
    ensures NoMatch(e.config.rules, hour, t)
    ensures Step(e, hour, Some(t)).engine.config.activeRuleId == NO_RULE
    ensures Step(e, hour, Some(t)).sent == if e.previous.power then [PowerOff] else []
  {
  }

  /** Outside that gap some seed rule always governs a valid hour. */
  lemma SeedCoversEverythingButTheGap(hour: int, t: real)
    requires 0 <= hour < 24
    requires t <= 25.9 || 26.0 <= t
    ensures SelectRule(DefaultRules(), hour, t).Some?
  {
  }

  /** Hour 10 at 27.0: "Cool Day" governs; from the boot state its settings are transmitted
      and tracked. */
  lemma HotDayScenario()
    ensures Step(SeededEngine(), 10, Some(27.0)).engine.config.activeRuleId == 1
    ensures Step(SeededEngine(), 10, Some(27.0)).sent == [ApplyOn(ACState(true, 27, 3, 0, 0, 0))]
  {
  }

  /** Hour 23 at 27.0: "Cool Night" governs through its overnight window. */
  lemma HotNightScenario()
    ensures Step(SeededEngine(), 23, Some(27.0)).engine.config.activeRuleId == 2
    ensures Step(SeededEngine(), 23, Some(27.0)).sent == [ApplyOn(ACState(true, 28, 1, 0, 2, 2))]
  {
  }

  /** Hour 14 at 25.0 and hour 3 at 10.0: "Turn Off When Cool" governs. Its tuple has fan 1
      while the boot tuple has fan 0, so the first such cycle after boot transmits a power-off
      even though the unit is already tracked as off. */
  lemma CoolScenarios()
    ensures Step(SeededEngine(), 14, Some(25.0)).engine.config.activeRuleId == 3
    ensures Step(SeededEngine(), 14, Some(25.0)).sent == [PowerOff]
    ensures Step(SeededEngine(), 3, Some(10.0)).engine.config.activeRuleId == 3
    ensures Step(SeededEngine(), 3, Some(10.0)).engine.previous == ACState(false, 24, 1, 0, 0, 0)
    ensures Step(SeededEngine(), 3, Some(10.0)).sent == [PowerOff]
  {
  }
}

=== FILE: gree_legacy.dfy ===
/** The value mappings of the deprecated Gree controller (deprecated/ir_control_old.cpp):
    temperature clamp, fan and mode encodings, timer rounding, the legacy-setting conversion,
    and the "initialized" guard every setter starts with. The IRGreeAC library register is
    modelled as a record whose fan and mode fields use distinct enum values in place of the
    library's numeric constants; each `send` appends the register to a log. */
module GreeLegacy {
  import opened Wrappers
  import opened CTypes
  import opened ACSettings

  datatype GreeFan = FanAuto | FanMin | FanMed | FanMax
  datatype GreeMode = ModeAuto | ModeCool | ModeDry | ModeFan | ModeHeat

  const MIN_TEMP: uint8 := 16
  const MAX_TEMP: uint8 := 30

  /** The temperature guard of `setTemperature`. */
  function ClampTemp(t: uint8): (c: uint8)
    ensures MIN_TEMP <= c <= MAX_TEMP
    ensures MIN_TEMP <= t <= MAX_TEMP ==> c == t
    ensures t < MIN_TEMP ==> c == MIN_TEMP
    ensures t > MAX_TEMP ==> c == MAX_TEMP
  {
    var low := if t < MIN_TEMP then MIN_TEMP else t;
    if low > MAX_TEMP then MAX_TEMP else low
  }

  /** Clamping is idempotent and order-preserving. */
  lemma ClampIdempotentMonotone(a: uint8, b: uint8)
    ensures ClampTemp(ClampTemp(a)) == ClampTemp(a)
    ensures a <= b ==> ClampTemp(a) <= ClampTemp(b)
  {
  }

  /** The `setFanSpeed` switch: 0..3 to auto/min/med/max, anything else to auto. */
  function FanForSpeed(speed: uint8): (f: GreeFan)
    ensures speed <= 3 ==> SpeedOfFan(f) == speed
    ensures speed > 3 ==> f == FanAuto
  {
    if speed == 1 then FanMin
    else if speed == 2 then FanMed
    else if speed == 3 then FanMax
    else FanAuto
  }

  /** The `getFanSpeed` switch. */
  function SpeedOfFan(f: GreeFan): (speed: uint8)
    ensures speed <= 3
  {
    match f
    case FanMin => 1
    case FanMed => 2
    case FanMax => 3
    case FanAuto => 0
  }

  /** The two fan switches invert each other on 0..3; other speeds read back as auto. */
  lemma FanRoundTrip(speed: uint8, f: GreeFan)
    ensures FanForSpeed(SpeedOfFan(f)) == f
    ensures speed > 3 ==> SpeedOfFan(FanForSpeed(speed)) == 0
  {
  }

  /** The `setMode` switch: 0..4 to auto/cool/dry/fan/heat, anything else to cool. */
  function ModeForCode(mode: uint8): (m: GreeMode)
    ensures mode <= 4 ==> CodeOfMode(m) == mode
    ensures mode > 4 ==> m == ModeCool
  {
    if mode == 0 then ModeAuto
    else if mode == 2 then ModeDry
    else if mode == 3 then ModeFan
    else if mode == 4 then ModeHeat
    else ModeCool
  }

  /** The `getMode` switch. */
  function CodeOfMode(m: GreeMode): (mode: uint8)
    ensures mode <= 4
  {
    match m
    case ModeCool => 1
    case ModeDry => 2
    case ModeFan => 3
    case ModeHeat => 4
    case ModeAuto => 0
  }

  /** The two mode switches invert each other on 0..4; other codes read back as cool (1). */
  lemma ModeRoundTrip(mode: uint8, m: GreeMode)
    ensures ModeForCode(CodeOfMode(m)) == m
    ensures mode > 4 ==> CodeOfMode(ModeForCode(mode)) == 1
  {
  }

  // ---------------------------------------------------------------------------------------
  // Timer rounding
  // ---------------------------------------------------------------------------------------

  /** `setTimer` as written: the rounded hour count is stored in a `uint8_t` before the cap at
      24 is applied, so it wraps modulo 256 first. */
  function TimerHoursAsWritten(minutes: uint16): (hours: uint8)
    ensures hours <= 24
    ensures (minutes + 30) / 60 < 256 ==> hours == TimerHours(minutes)
    ensures (minutes + 30) / 60 >= 256 && ((minutes + 30) / 60) % 256 <= 24 ==>
              hours * 60 - 30 <= minutes - 15360 * (((minutes + 30) / 60) / 256) < hours * 60 + 30
    ensures ((minutes + 30) / 60) % 256 > 24 ==> hours == 24
  {
    var hours := IntToU8((minutes + 30) / 60);
    if hours > 24 then 24 else hours
  }

  /** The wrap makes the as-written rounding non-monotone: 1440 minutes give the cap of 24
      hours, but 15330 minutes (about 255.5 hours) give 0. */
  lemma TimerHoursAsWrittenWraps()
    ensures TimerHoursAsWritten(1440) == 24
    ensures TimerHoursAsWritten(15330) == 0
  {
  }

  /** Timer rounding as intended: minutes to the nearest hour, capped at 24. */
  function TimerHours(minutes: uint16): (hours: uint8)
    ensures hours <= 24
    ensures (minutes + 30) / 60 <= 24 ==> hours * 60 - 30 <= minutes < hours * 60 + 30
    ensures (minutes + 30) / 60 > 24 ==> hours == 24
  {
    var rounded := (minutes + 30) / 60;
    if rounded > 24 then 24 else rounded
  }

  /** More minutes never yield fewer hours. */
  lemma TimerHoursMonotone(m1: uint16, m2: uint16)
    requires m1 <= m2
    ensures TimerHours(m1) <= TimerHours(m2)
  {
  }

  /** Below the wrap point the as-written rounding and the intended one agree. */
  lemma TimerHoursAgreeBelowWrap(minutes: uint16)
    requires minutes < 15330
    ensures TimerHoursAsWritten(minutes) == TimerHours(minutes)
  {
  }

  // ---------------------------------------------------------------------------------------
  // Legacy setting conversion
  // ---------------------------------------------------------------------------------------

  /** The Gree-side setting record. */
  datatype GreeACSetting = GreeACSetting(power: bool, temperature: uint8, fanSpeed: uint8, mode: uint8,
                                         swingV: bool, swingH: bool, timer: uint16)

  /** The wind switch of `convertToGreeSettings`: 1, 2, 3 kept, 4 and 5 folded into 3, the
      rest auto. */
  function WindToFanSpeed(wind: int): (speed: uint8)
    ensures speed <= 3
    ensures 1 <= wind <= 3 ==> speed == wind
    ensures 4 <= wind <= 5 ==> speed == 3
    ensures speed == 0 <==> !(1 <= wind <= 5)
  {
    if wind == 1 then 1
    else if wind == 2 then 2
    else if wind == 3 || wind == 4 || wind == 5 then 3
    else 0
  }

  /** `convertToGreeSettings`: power on, truncated temperature, mode 1, no swing, no timer. */
  function ConvertToGreeSettings(setting: ACSetting): (g: GreeACSetting)
    ensures g.power && g.mode == 1 && !g.swingV && !g.swingH && g.timer == 0
    ensures g.fanSpeed == WindToFanSpeed(setting.wind)
    ensures 0.0 <= setting.temp < 256.0 ==> g.temperature as real <= setting.temp < g.temperature as real + 1.0
  {
    GreeACSetting(true, FloatToU8(setting.temp), WindToFanSpeed(setting.wind), 1, false, false, 0)
  }

  // ---------------------------------------------------------------------------------------
  // The controller and its guards
  // ---------------------------------------------------------------------------------------

  /** The library register the controller edits before sending. */
  datatype GreeRegister = GreeRegister(power: bool, temp: uint8, fan: GreeFan, mode: GreeMode, swingV: bool, swingH: bool)

  /** `GreeACController`: the initialized flag, the register, and the registers sent so far. */
  datatype GreeController = GreeController(initialized: bool, ac: GreeRegister, sent: seq<GreeRegister>)

  /** The register `init` writes: off, 24, fan auto, cool, no swing. */
  const INIT_REGISTER := GreeRegister(false, 24, FanAuto, ModeCool, false, false)

  /** The constructor; the library's own reset register is an input. */
  function NewController(reset: GreeRegister): (c: GreeController)
    ensures !c.initialized && c.sent == []
  {
    GreeController(false, reset, [])
  }

  /** `init`: writes the default register and sets the flag; nothing is sent. */
  function Init(c: GreeController): (c': GreeController)
    ensures c'.initialized && c'.ac == INIT_REGISTER && c'.sent == c.sent
  {
    GreeController(true, INIT_REGISTER, c.sent)
  }

  /** `isReady`. */
  predicate IsReady(c: GreeController) {
    c.initialized
  }

  /** A controller is ready exactly from `init` on: a new one is not, an initialized one is,
      and only a ready one transmits. */
  lemma ReadyExactlyAfterInit(reset: GreeRegister, c: GreeController)
    ensures !IsReady(NewController(reset))
    ensures IsReady(Init(c))
    ensures |SendCommand(c).sent| == |c.sent| + (if IsReady(c) then 1 else 0)
  {
  }

  /** `sendCommand`: one transmission of the current register, only once initialized. */
  function SendCommand(c: GreeController): (c': GreeController)
    ensures c.initialized ==> c'.sent == c.sent + [c.ac] && c'.ac == c.ac
    ensures !c.initialized ==> c' == c
    ensures c'.initialized == c.initialized
  {
    if !c.initialized then c else c.(sent := c.sent + [c.ac])
  }

  /** `powerOn`. */
  function PowerOn(c: GreeController): (c': GreeController)
    ensures c.initialized ==> c'.ac == c.ac.(power := true) && c'.sent == c.sent + [c'.ac]
    ensures !c.initialized ==> c' == c
    ensures c'.initialized == c.initialized
  {
    if !c.initialized then c else SendCommand(c.(ac := c.ac.(power := true)))
  }

  /** `powerOff`. */
  function PowerOff(c: GreeController): (c': GreeController)
    ensures c.initialized ==> c'.ac == c.ac.(power := false) && c'.sent == c.sent + [c'.ac]
    ensures !c.initialized ==> c' == c
    ensures c'.initialized == c.initialized
  {
    if !c.initialized then c else SendCommand(c.(ac := c.ac.(power := false)))
  }

  /** `setTemperature`: stores the clamped value. */
  function SetTemperature(c: GreeController, t: uint8): (c': GreeController)
    ensures c.initialized ==> c'.ac.temp == ClampTemp(t) && c'.ac.(temp := c.ac.temp) == c.ac && c'.sent == c.sent
    ensures !c.initialized ==> c' == c
    ensures c'.initialized == c.initialized
  {
    if !c.initialized then c else c.(ac := c.ac.(temp := ClampTemp(t)))
  }

  /** `setFanSpeed`. */
  function SetFanSpeed(c: GreeController, speed: uint8): (c': GreeController)
    ensures c.initialized ==> c'.ac.fan == FanForSpeed(speed) && c'.ac.(fan := c.ac.fan) == c.ac && c'.sent == c.sent
    ensures !c.initialized ==> c' == c
    ensures c'.initialized == c.initialized
  {
    if !c.initialized then c else c.(ac := c.ac.(fan := FanForSpeed(speed)))
  }

  /** `getFanSpeed` (no guard). */
  function GetFanSpeed(c: GreeController): (speed: uint8)
    ensures speed <= 3 && FanForSpeed(speed) == c.ac.fan
  {
    SpeedOfFan(c.ac.fan)
  }

  /** `setMode`. */
  function SetMode(c: GreeController, mode: uint8): (c': GreeController)
    ensures c.initialized ==> c'.ac.mode == ModeForCode(mode) && c'.ac.(mode := c.ac.mode) == c.ac && c'.sent == c.sent
    ensures !c.initialized ==> c' == c
    ensures c'.initialized == c.initialized
  {
    if !c.initialized then c else c.(ac := c.ac.(mode := ModeForCode(mode)))
  }

  /** `getMode` (no guard). */
  function GetMode(c: GreeController): (mode: uint8)
    ensures mode <= 4 && ModeForCode(mode) == c.ac.mode
  {
    CodeOfMode(c.ac.mode)
  }

  /** `setSwingV`; the swing position argument is always the library's auto position. */
  function SetSwingV(c: GreeController, enable: bool): (c': GreeController)
    ensures c.initialized ==> c'.ac == c.ac.(swingV := enable) && c'.sent == c.sent
    ensures !c.initialized ==> c' == c
    ensures c'.initialized == c.initialized
  {
    if !c.initialized then c else c.(ac := c.ac.(swingV := enable))
  }

  /** `setSwingH`. */
  function SetSwingH(c: GreeController, enable: bool): (c': GreeController)
    ensures c.initialized ==> c'.ac == c.ac.(swingH := enable) && c'.sent == c.sent
    ensures !c.initialized ==> c' == c
    ensures c'.initialized == c.initialized
  {
    if !c.initialized then c else c.(ac := c.ac.(swingH := enable))
  }

  /** `setTimer`: computes an hour count (only logged by the firmware) with the as-written
      rounding, wrap included; `None` before init. The register is never touched. */
  function SetTimer(c: GreeController, minutes: uint16): (hours: Option<uint8>)
    ensures hours.Some? <==> c.initialized
    ensures hours.Some? ==> hours.value <= 24
    ensures hours.Some? ==> hours.value == TimerHoursAsWritten(minutes)
    ensures hours.Some? && (minutes + 30) / 60 < 256 ==> hours.value == TimerHours(minutes)
  {
    if !c.initialized then None else Some(TimerHoursAsWritten(minutes))
  }

  /** The effect of `applySettings` once a Gree setting is at hand. */
  datatype Applied = Applied(controller: GreeController, timerHours: Option<uint8>)

  /** The body of `applySettings` after conversion: power and raw temperature go straight into
      the register (bypassing the clamp), fan/mode/swing go through their setters, the timer
      is set only for a positive value, and one command is sent. */
  function ApplyGreeSettings(c: GreeController, g: GreeACSetting): (a: Applied)
    ensures !c.initialized ==> a == Applied(c, None)
    ensures c.initialized ==>
              && a.controller.ac == GreeRegister(g.power, g.temperature, FanForSpeed(g.fanSpeed), ModeForCode(g.mode), g.swingV, g.swingH)
              && a.controller.sent == c.sent + [a.controller.ac]
              && (a.timerHours.Some? <==> g.timer > 0)
    ensures a.controller.initialized == c.initialized
    ensures a.timerHours.Some? ==> a.timerHours.value == TimerHoursAsWritten(g.timer)
  {
    if !c.initialized then Applied(c, None)
    else
      var c1 := c.(ac := c.ac.(power := g.power, temp := g.temperature));
      var c2 := SetSwingH(SetSwingV(SetMode(SetFanSpeed(c1, g.fanSpeed), g.mode), g.swingV), g.swingH);
      var hours := if g.timer > 0 then SetTimer(c2, g.timer) else None;
      Applied(SendCommand(c2), hours)
  }

  /** `applySettings`: convert, then apply. */
  function ApplySettings(c: GreeController, setting: ACSetting): (a: Applied)
    ensures !c.initialized ==> a.controller == c && a.timerHours.None?
    ensures a.timerHours.None?
    ensures a.controller.initialized == c.initialized
    ensures c.initialized ==> a.controller.sent == c.sent + [a.controller.ac]
  {
    ApplyGreeSettings(c, ConvertToGreeSettings(setting))
  }

  /** After applying a legacy setting the unit is on in cool mode with no swing and no timer,
      and reading the fan back gives the converted wind level. */
  lemma ApplySettingsEffect(c: GreeController, setting: ACSetting)
    requires c.initialized
    ensures var a := ApplySettings(c, setting);
            && a.controller.ac.power && a.controller.ac.temp == FloatToU8(setting.temp)
            && GetMode(a.controller) == 1 && !a.controller.ac.swingV && !a.controller.ac.swingH
            && GetFanSpeed(a.controller) == WindToFanSpeed(setting.wind)
            && a.timerHours.None?
            && |a.controller.sent| == |c.sent| + 1
  {
  }

  /** Before `init` every setter, `sendCommand` and `applySettings` leave the controller as
      it is and transmit nothing. */
  lemma NothingBeforeInit(c: GreeController, t: uint8, b: bool, minutes: uint16, setting: ACSetting)
    requires !c.initialized
    ensures PowerOn(c) == c && PowerOff(c) == c && SendCommand(c) == c
    ensures SetTemperature(c, t) == c && SetFanSpeed(c, t) == c && SetMode(c, t) == c
    ensures SetSwingV(c, b) == c && SetSwingH(c, b) == c && SetTimer(c, minutes).None?
    ensures ApplySettings(c, setting).controller == c
  {
  }
}

=== FILE: ir_control.dfy ===
/** The learned-IR-code side of the controller (src/ir_control.cpp): the 14-slot code map and
    its flash mirror, readiness, the step-by-step learning wizard and the button selection for
    a legacy setting. Receiver, transmitter and clock are inputs; Preferences storage is a map
    from key to string. */
module IRControl {
  import opened Wrappers
  import opened CTypes
  import opened ACSettings

  /** The remote-control buttons, in enum order. */
  datatype IRButton =
    | PowerOn | PowerOff | TempUp | TempDown | FanLow | FanMed | FanHigh
    | ModeCool | ModeHeat | ModeAuto | SwingOn | SwingOff | TimerOn | TimerOff

  /** Number of entries of `buttonNames`, which `initIR` stores as `totalButtons`. */
  const BUTTON_COUNT: nat := 14

  /** Step timeout of the learning wizard, in milliseconds. */
  const LEARN_TIMEOUT_MS: nat := 30000

  /** The enum value of a button. */
  function Ordinal(b: IRButton): (n: nat)
    ensures n < BUTTON_COUNT
  {
    match b
    case PowerOn => 0 case PowerOff => 1 case TempUp => 2 case TempDown => 3
    case FanLow => 4 case FanMed => 5 case FanHigh => 6 case ModeCool => 7
    case ModeHeat => 8 case ModeAuto => 9 case SwingOn => 10 case SwingOff => 11
    case TimerOn => 12 case TimerOff => 13
  }

  /** The button an `int` cast to `IRButton` names; `None` past the end of the enum. */
  function ButtonAt(i: int): (r: Option<IRButton>)
    ensures r.Some? <==> 0 <= i < BUTTON_COUNT
    ensures r.Some? ==> Ordinal(r.value) == i
  {
    if i == 0 then Some(PowerOn) else if i == 1 then Some(PowerOff)
    else if i == 2 then Some(TempUp) else if i == 3 then Some(TempDown)
    else if i == 4 then Some(FanLow) else if i == 5 then Some(FanMed)
    else if i == 6 then Some(FanHigh) else if i == 7 then Some(ModeCool)
    else if i == 8 then Some(ModeHeat) else if i == 9 then Some(ModeAuto)
    else if i == 10 then Some(SwingOn) else if i == 11 then Some(SwingOff)
    else if i == 12 then Some(TimerOn) else if i == 13 then Some(TimerOff)
    else None
  }

  /** Every button is reached by casting its own enum value. */
  lemma OrdinalRoundTrip(b: IRButton)
    ensures ButtonAt(Ordinal(b)) == Some(b)
  {
  }

  /** All buttons in enum order. */
  const ALL_BUTTONS: seq<IRButton> :=
    [PowerOn, PowerOff, TempUp, TempDown, FanLow, FanMed, FanHigh,
     ModeCool, ModeHeat, ModeAuto, SwingOn, SwingOff, TimerOn, TimerOff]

  /** The in-memory code map, one hex string per button; "" means not learned. */
  datatype IRCodeMap = IRCodeMap(
    powerOn: string, powerOff: string, tempUp: string, tempDown: string,
    fanLow: string, fanMed: string, fanHigh: string,
    modeCool: string, modeHeat: string, modeAuto: string,
    swingOn: string, swingOff: string, timerOn: string, timerOff: string)

  /** A map with nothing learned. */
  const EMPTY_CODES := IRCodeMap("", "", "", "", "", "", "", "", "", "", "", "", "", "")

  /** `getIRCodeForButton`. */
  function GetCode(m: IRCodeMap, b: IRButton): string {
    match b
    case PowerOn => m.powerOn case PowerOff => m.powerOff
    case TempUp => m.tempUp case TempDown => m.tempDown
    case FanLow => m.fanLow case FanMed => m.fanMed case FanHigh => m.fanHigh
    case ModeCool => m.modeCool case ModeHeat => m.modeHeat case ModeAuto => m.modeAuto
    case SwingOn => m.swingOn case SwingOff => m.swingOff
    case TimerOn => m.timerOn case TimerOff => m.timerOff
  }

  /** The in-memory part of `saveIRCodeForButton`: exactly one slot takes the new code. */
  function PutCode(m: IRCodeMap, b: IRButton, code: string): (m': IRCodeMap)
    ensures GetCode(m', b) == code
    ensures forall b' :: b' != b ==> GetCode(m', b') == GetCode(m, b')
  {
    match b
    case PowerOn => m.(powerOn := code) case PowerOff => m.(powerOff := code)
    case TempUp => m.(tempUp := code) case TempDown => m.(tempDown := code)
    case FanLow => m.(fanLow := code) case FanMed => m.(fanMed := code)
    case FanHigh => m.(fanHigh := code) case ModeCool => m.(modeCool := code)
    case ModeHeat => m.(modeHeat := code) case ModeAuto => m.(modeAuto := code)
    case SwingOn => m.(swingOn := code) case SwingOff => m.(swingOff := code)
    case TimerOn => m.(timerOn := code) case TimerOff => m.(timerOff := code)
  }

  /** 1 for a learned slot, 0 otherwise. */
  function Learned(code: string): nat {
    if |code| > 0 then 1 else 0
  }

  /** Reference count: the learned slots among the listed buttons. */
  function LearnedAmong(m: IRCodeMap, bs: seq<IRButton>): (n: nat)
    ensures n <= |bs|
  {
    if |bs| == 0 then 0 else Learned(GetCode(m, bs[0])) + LearnedAmong(m, bs[1..])
  }

  /** Peels the first button off a suffix of the list. */
  lemma LearnedAmongPeel(m: IRCodeMap, bs: seq<IRButton>, i: nat)
    requires i < |bs|
    ensures LearnedAmong(m, bs[i..]) == Learned(GetCode(m, bs[i])) + LearnedAmong(m, bs[i + 1..])
  {
  }

  /** The slot counts of the buttons from index `i` of the enum list on. */
  function SlotSum(m: IRCodeMap, i: nat): nat
    requires i <= BUTTON_COUNT
    decreases BUTTON_COUNT - i
  {
    if i == BUTTON_COUNT then 0 else Learned(GetCode(m, ALL_BUTTONS[i])) + SlotSum(m, i + 1)
  }

  /** The reference count over a suffix of the enum list is the slot sum from there on. */
  lemma {:induction false} LearnedAmongIsSlotSum(m: IRCodeMap, i: nat)
    requires i <= BUTTON_COUNT
    ensures LearnedAmong(m, ALL_BUTTONS[i..]) == SlotSum(m, i)
    decreases BUTTON_COUNT - i
  {
    if i < BUTTON_COUNT {
      LearnedAmongPeel(m, ALL_BUTTONS, i);
      LearnedAmongIsSlotSum(m, i + 1);
    }
  }

  /** `countLearnedButtons`: one increment per non-empty slot. */
  function CountLearned(m: IRCodeMap): (n: nat)
    ensures n == LearnedAmong(m, ALL_BUTTONS)
    ensures n <= BUTTON_COUNT
  {
    LearnedAmongIsSlotSum(m, 0);
    assert ALL_BUTTONS[0..] == ALL_BUTTONS;
    assert SlotSum(m, 10) == Learned(m.swingOn) + Learned(m.swingOff) + Learned(m.timerOn) + Learned(m.timerOff);
    assert SlotSum(m, 5) == Learned(m.fanMed) + Learned(m.fanHigh) + Learned(m.modeCool) + Learned(m.modeHeat)
                            + Learned(m.modeAuto) + SlotSum(m, 10);
    assert SlotSum(m, 0) == Learned(m.powerOn) + Learned(m.powerOff) + Learned(m.tempUp) + Learned(m.tempDown)
                            + Learned(m.fanLow) + SlotSum(m, 5);
    Learned(m.powerOn) + Learned(m.powerOff) + Learned(m.tempUp) + Learned(m.tempDown)
    + Learned(m.fanLow) + Learned(m.fanMed) + Learned(m.fanHigh)
    + Learned(m.modeCool) + Learned(m.modeHeat) + Learned(m.modeAuto)
    + Learned(m.swingOn) + Learned(m.swingOff) + Learned(m.timerOn) + Learned(m.timerOff)
  }

  /** A list whose every button is counted has every slot learned. */
  lemma {:induction false} FullCountMeansAllLearned(m: IRCodeMap, bs: seq<IRButton>)
    requires LearnedAmong(m, bs) == |bs|
    ensures forall i :: 0 <= i < |bs| ==> |GetCode(m, bs[i])| > 0
  {
    if |bs| > 0 {
      FullCountMeansAllLearned(m, bs[1..]);
      forall i | 1 <= i < |bs|
        ensures |GetCode(m, bs[i])| > 0
      {
        assert bs[i] == bs[1..][i - 1];
      }
    }
  }

  /** A count of 14 means no slot is empty. */
  lemma EveryButtonLearned(m: IRCodeMap)
    requires CountLearned(m) == BUTTON_COUNT
    ensures forall b :: |GetCode(m, b)| > 0
  {
    FullCountMeansAllLearned(m, ALL_BUTTONS);
    forall b: IRButton
      ensures |GetCode(m, b)| > 0
    {
      assert ALL_BUTTONS[Ordinal(b)] == b;
    }
  }

  /** Saving moves the count by exactly the change in that one slot. */
  lemma CountAfterPut(m: IRCodeMap, b: IRButton, code: string)
    ensures CountLearned(PutCode(m, b, code)) + Learned(GetCode(m, b)) == CountLearned(m) + Learned(code)
  {
  }

  // ---------------------------------------------------------------------------------------
  // Flash mirror
  // ---------------------------------------------------------------------------------------

  /** `getButtonPrefsKey`: the Preferences key each slot is stored under. */
  function PrefsKey(b: IRButton): (key: string)
    ensures |key| > 0
  {
    match b
    case PowerOn => "ir_power_on" case PowerOff => "ir_power_off"
    case TempUp => "ir_temp_up" case TempDown => "ir_temp_down"
    case FanLow => "ir_fan_low" case FanMed => "ir_fan_med" case FanHigh => "ir_fan_high"
    case ModeCool => "ir_mode_cool" case ModeHeat => "ir_mode_heat" case ModeAuto => "ir_mode_auto"
    case SwingOn => "ir_swing_on" case SwingOff => "ir_swing_off"
    case TimerOn => "ir_timer_on" case TimerOff => "ir_timer_off"
  }

  /** Distinct buttons are stored under distinct keys, so no save can clobber another slot. */
  lemma PrefsKeysDistinct(b1: IRButton, b2: IRButton)
    requires b1 != b2
    ensures PrefsKey(b1) != PrefsKey(b2)
  {
  }

  /** `preferences.getString(key, "")`. */
  function GetString(prefs: map<string, string>, key: string): string {
    if key in prefs then prefs[key] else ""
  }

  /** `loadAllIRCodes`: every slot is read from its own key, missing keys giving "". */
  function LoadAllIRCodes(prefs: map<string, string>): (m: IRCodeMap)
    ensures forall b :: GetCode(m, b) == GetString(prefs, PrefsKey(b))
  {
    IRCodeMap(
      GetString(prefs, "ir_power_on"), GetString(prefs, "ir_power_off"),
      GetString(prefs, "ir_temp_up"), GetString(prefs, "ir_temp_down"),
      GetString(prefs, "ir_fan_low"), GetString(prefs, "ir_fan_med"), GetString(prefs, "ir_fan_high"),
      GetString(prefs, "ir_mode_cool"), GetString(prefs, "ir_mode_heat"), GetString(prefs, "ir_mode_auto"),
      GetString(prefs, "ir_swing_on"), GetString(prefs, "ir_swing_off"),
      GetString(prefs, "ir_timer_on"), GetString(prefs, "ir_timer_off"))
  }

  /** After a load, each button reads the value stored under its own key, or "" if none. */
  lemma GetCodeAfterLoad(prefs: map<string, string>, b: IRButton)
    ensures GetCode(LoadAllIRCodes(prefs), b) == (if PrefsKey(b) in prefs then prefs[PrefsKey(b)] else "")
  {
  }

  /** Writing one slot's key and reloading changes that slot alone: the flash write of a save
      and the in-memory update of a save agree. */
  lemma StoreThenLoad(prefs: map<string, string>, b: IRButton, code: string)
    ensures LoadAllIRCodes(prefs[PrefsKey(b) := code]) == PutCode(LoadAllIRCodes(prefs), b, code)
  {
  }

  // ---------------------------------------------------------------------------------------
  // Readiness and the IR subsystem state
  // ---------------------------------------------------------------------------------------

  /** Minimum set for automatic control: both power codes, both temperature codes and at
      least one fan code. */
  predicate Ready(m: IRCodeMap) {
    && |m.powerOn| > 0 && |m.powerOff| > 0
    && |m.tempUp| > 0 && |m.tempDown| > 0
    && (|m.fanLow| > 0 || |m.fanMed| > 0 || |m.fanHigh| > 0)
  }

  /** Readiness stated button by button: both power codes and both temperature codes, and at
      least one fan code. */
  lemma ReadyIsEssentialCodes(m: IRCodeMap)
    ensures Ready(m) <==>
              && (forall b :: b in {PowerOn, PowerOff, TempUp, TempDown} ==> |GetCode(m, b)| > 0)
              && (exists b :: b in {FanLow, FanMed, FanHigh} && |GetCode(m, b)| > 0)
  {
    if Ready(m) {
      var fan := if |m.fanLow| > 0 then FanLow else if |m.fanMed| > 0 then FanMed else FanHigh;
      assert |GetCode(m, fan)| > 0;
    } else if |m.powerOn| > 0 && |m.powerOff| > 0 && |m.tempUp| > 0 && |m.tempDown| > 0 {
      assert forall b :: b in {FanLow, FanMed, FanHigh} ==> |GetCode(m, b)| == 0;
    } else {
      var missing := if |m.powerOn| == 0 then PowerOn else if |m.powerOff| == 0 then PowerOff
                     else if |m.tempUp| == 0 then TempUp else TempDown;
      assert |GetCode(m, missing)| == 0;
    }
  }

  /** A ready map has at least five learned codes. */
  lemma ReadyNeedsFiveCodes(m: IRCodeMap)
    requires Ready(m)
    ensures CountLearned(m) >= 5
  {
  }

  /** Learning a non-empty code never takes readiness away; only erasing a required slot can. */
  lemma LearningKeepsReadiness(m: IRCodeMap, b: IRButton, code: string)
    requires Ready(m) && |code| > 0
    ensures Ready(PutCode(m, b, code))
  {
  }

  /** `IRLearningState`, with the `isReadyForControl` flag the implementation relies on. */
  datatype LearningState = LearningState(
    isLearning: bool,
    currentButton: int,
    learnedButtons: int,
    totalButtons: int,
    stepStartTime: uint32,
    isReadyForControl: bool)

  /** The IR globals: code map, Preferences contents and learning state. */
  datatype IRSystem = IRSystem(codes: IRCodeMap, prefs: map<string, string>, learning: LearningState)

  /** What every operation keeps true once `initIR` has run: the map mirrors flash, the
      statistics and the readiness flag describe the map, and a running wizard points at a
      real button. */
  predicate Consistent(s: IRSystem) {
    && s.codes == LoadAllIRCodes(s.prefs)
    && s.learning.learnedButtons == CountLearned(s.codes)
    && s.learning.isReadyForControl == Ready(s.codes)
    && s.learning.totalButtons == BUTTON_COUNT
    && 0 <= s.learning.currentButton <= BUTTON_COUNT
    && (s.learning.isLearning ==> s.learning.currentButton < BUTTON_COUNT)
  }

  /** `updateIRControlReadiness`: recomputes the readiness flag and the learned count. */
  function UpdateReadiness(s: IRSystem): (s': IRSystem)
    ensures s'.learning.isReadyForControl <==> Ready(s.codes)
    ensures s'.learning.learnedButtons == CountLearned(s.codes)
    ensures s'.codes == s.codes && s'.prefs == s.prefs
    ensures s'.learning.(isReadyForControl := s.learning.isReadyForControl, learnedButtons := s.learning.learnedButtons) == s.learning
  {
    s.(learning := s.learning.(isReadyForControl := Ready(s.codes), learnedButtons := CountLearned(s.codes)))
  }

  /** `initIR` without the hardware: load the codes from flash and reset the wizard. */
  function InitIR(prefs: map<string, string>): (s: IRSystem)
    ensures Consistent(s)
    ensures s.prefs == prefs && s.codes == LoadAllIRCodes(prefs)
    ensures !s.learning.isLearning && s.learning.currentButton == 0
  {
    var codes := LoadAllIRCodes(prefs);
    UpdateReadiness(IRSystem(codes, prefs, LearningState(false, 0, CountLearned(codes), BUTTON_COUNT, 0, false)))
  }

  /** `saveIRCodeForButton`: writes the key in flash, the slot in memory, then refreshes the
      statistics. The key is never empty, so the save always happens. */
  function SaveIRCodeForButton(s: IRSystem, b: IRButton, code: string): (s': IRSystem)
    ensures GetCode(s'.codes, b) == code
    ensures forall b' :: b' != b ==> GetCode(s'.codes, b') == GetCode(s.codes, b')
    ensures Consistent(s) ==> Consistent(s')
    ensures s'.learning.isLearning == s.learning.isLearning && s'.learning.currentButton == s.learning.currentButton
  {
    StoreThenLoad(s.prefs, b, code);
    UpdateReadiness(IRSystem(PutCode(s.codes, b, code), s.prefs[PrefsKey(b) := code], s.learning))
  }

  /** The save the wizard performs for its cursor: a cursor past the enum has an empty key,
      which the key-length guard turns into a no-op. */
  function SaveAtCursor(s: IRSystem, code: string): (s': IRSystem)
    ensures 0 <= s.learning.currentButton < BUTTON_COUNT ==>
              GetCode(s'.codes, ButtonAt(s.learning.currentButton).value) == code
    ensures !(0 <= s.learning.currentButton < BUTTON_COUNT) ==> s' == s
    ensures Consistent(s) ==> Consistent(s')
  {
    match ButtonAt(s.learning.currentButton)
    case Some(b) => SaveIRCodeForButton(s, b, code)
    case None => s
  }

  /** `sendIRButton`: the code handed to the transmitter, if any. */
  function SendIRButton(s: IRSystem, b: IRButton): (sent: Option<string>)
    ensures sent.Some? <==> s.learning.isReadyForControl && |GetCode(s.codes, b)| > 0
    ensures sent.Some? ==> sent.value == GetCode(s.codes, b)
  {
    if !s.learning.isReadyForControl then None
    else if |GetCode(s.codes, b)| > 0 then Some(GetCode(s.codes, b))
    else None
  }

  // ---------------------------------------------------------------------------------------
  // Learning wizard
  // ---------------------------------------------------------------------------------------

  /** `startIRLearning`: the wizard starts at the first button with a fresh step timer. */
  function StartIRLearning(s: IRSystem, now: uint32): (s': IRSystem)
    ensures s'.learning.isLearning && s'.learning.currentButton == 0 && s'.learning.stepStartTime == now
    ensures s'.codes == s.codes && s'.prefs == s.prefs
    ensures Consistent(s) ==> Consistent(s')
  {
    s.(learning := s.learning.(isLearning := true, currentButton := 0, stepStartTime := now))
  }

  /** `stopIRLearning`: the wizard stops and the learned count is refreshed. */
  function StopIRLearning(s: IRSystem): (s': IRSystem)
    ensures !s'.learning.isLearning && s'.learning.learnedButtons == CountLearned(s.codes)
    ensures s'.codes == s.codes && s'.learning.currentButton == s.learning.currentButton
    ensures Consistent(s) && s.learning.currentButton <= BUTTON_COUNT ==> Consistent(s')
  {
    s.(learning := s.learning.(isLearning := false, learnedButtons := CountLearned(s.codes)))
  }

  /** `moveToNextLearningStep`: advance the cursor; past the last button the wizard stops,
      otherwise the step timer restarts. */
  function MoveToNextLearningStep(s: IRSystem, now: uint32): (s': IRSystem)
    ensures s'.learning.currentButton == s.learning.currentButton + 1
    ensures s'.codes == s.codes
    ensures s'.learning.isLearning <==> s.learning.isLearning && s.learning.currentButton + 1 < s.learning.totalButtons
    ensures s'.learning.isLearning ==> s'.learning.stepStartTime == now
    ensures Consistent(s) && s.learning.isLearning ==> Consistent(s')
  {
    var advanced := s.(learning := s.learning.(currentButton := s.learning.currentButton + 1));
    if advanced.learning.currentButton >= advanced.learning.totalButtons then StopIRLearning(advanced)
    else advanced.(learning := advanced.learning.(stepStartTime := now))
  }

  /** The result of polling the wizard once: the new state and the function's return value. */
  datatype LearningPoll = LearningPoll(system: IRSystem, handled: bool)

  /** A received code is accepted when it is longer than two characters and is not the NEC
      repeat code "FFFFFFFF". */
  predicate AcceptableCode(code: string) {
    |code| > 2 && code != "FFFFFFFF"
  }

  /** `processIRLearning` for the clock value `now` and what the receiver decoded this poll
      (`None`: nothing). A step older than 30 s is skipped without saving. */
  function ProcessIRLearning(s: IRSystem, now: uint32, decoded: Option<string>): (p: LearningPoll)
    ensures !s.learning.isLearning ==> p == LearningPoll(s, false)
    ensures s.learning.isLearning && ElapsedU32(now, s.learning.stepStartTime) > LEARN_TIMEOUT_MS ==>
              p.handled && p.system.codes == s.codes
              && p.system.learning.currentButton == s.learning.currentButton + 1
              && (p.system.learning.isLearning ==> p.system.learning.stepStartTime == now)
    ensures s.learning.isLearning && ElapsedU32(now, s.learning.stepStartTime) <= LEARN_TIMEOUT_MS ==>
              && (p.handled <==> decoded.Some?)
              && (decoded.Some? && AcceptableCode(decoded.value) && 0 <= s.learning.currentButton < BUTTON_COUNT ==>
                    && GetCode(p.system.codes, ButtonAt(s.learning.currentButton).value) == decoded.value
                    && (forall b :: b != ButtonAt(s.learning.currentButton).value ==>
                                      GetCode(p.system.codes, b) == GetCode(s.codes, b))
                    && p.system.learning.currentButton == s.learning.currentButton + 1
                    && (p.system.learning.isLearning ==> p.system.learning.stepStartTime == now))
              && (decoded.None? || !AcceptableCode(decoded.value) ==> p.system == s)
    ensures Consistent(s) ==> Consistent(p.system)
  {
    if !s.learning.isLearning then LearningPoll(s, false)
    else if ElapsedU32(now, s.learning.stepStartTime) > LEARN_TIMEOUT_MS then
      LearningPoll(MoveToNextLearningStep(s, now), true)
    else match decoded
      case None => LearningPoll(s, false)
      case Some(code) =>
        if AcceptableCode(code) then LearningPoll(MoveToNextLearningStep(SaveAtCursor(s, code), now), true)
        else LearningPoll(s, true)
  }

  /** The NEC repeat code and codes of at most two characters are consumed without being
      saved: the poll reports them handled and the state stays as it was. */
  lemma RepeatAndNoiseIgnored(s: IRSystem, now: uint32, code: string)
    requires s.learning.isLearning && ElapsedU32(now, s.learning.stepStartTime) <= LEARN_TIMEOUT_MS
    requires code == "FFFFFFFF" || |code| <= 2
    ensures ProcessIRLearning(s, now, Some(code)) == LearningPoll(s, true)
  {
  }

  /** The wizard after `k` further steps, each ended by a timeout or an accepted code. */
  function Advance(s: IRSystem, k: nat, now: uint32): IRSystem {
    if k == 0 then s else MoveToNextLearningStep(Advance(s, k - 1, now), now)
  }

  /** From a fresh start the wizard visits the buttons in enum order and stops right after
      the last one. */
  lemma {:induction false} WizardVisitsEveryButton(s: IRSystem, t0: uint32, now: uint32, k: nat)
    requires Consistent(s)
    requires k <= BUTTON_COUNT
    ensures Advance(StartIRLearning(s, t0), k, now).learning.currentButton == k
    ensures Advance(StartIRLearning(s, t0), k, now).learning.isLearning <==> k < BUTTON_COUNT
    ensures Consistent(Advance(StartIRLearning(s, t0), k, now))
  {
    if k > 0 {
      WizardVisitsEveryButton(s, t0, now, k - 1);
    }
  }

  // ---------------------------------------------------------------------------------------
  // Applying a legacy setting with learned buttons
  // ---------------------------------------------------------------------------------------

  /** The buttons `applyACSetting` presses: one temperature button outside 20..24 and one fan
      button for wind 1, 2 or 3, in that order. */
  function ButtonsFor(setting: ACSetting): (bs: seq<IRButton>)
    ensures |bs| <= 2
    ensures |bs| == (if setting.temp > 24.0 || setting.temp < 20.0 then 1 else 0)
                    + (if 1 <= setting.wind <= 3 then 1 else 0)
    ensures forall i, j :: 0 <= i < j < |bs| ==> bs[i] in {TempUp, TempDown} && bs[j] in {FanLow, FanMed, FanHigh}
    ensures setting.temp > 24.0 ==> bs[0] == TempUp
    ensures setting.temp < 20.0 ==> bs[0] == TempDown
    ensures TempUp in bs <==> setting.temp > 24.0
    ensures TempDown in bs <==> setting.temp < 20.0
    ensures FanLow in bs <==> setting.wind == 1
    ensures FanMed in bs <==> setting.wind == 2
    ensures FanHigh in bs <==> setting.wind == 3
    ensures forall b :: b in bs ==> b in {TempUp, TempDown, FanLow, FanMed, FanHigh}
  {
    var temp := if setting.temp > 24.0 then [TempUp] else if setting.temp < 20.0 then [TempDown] else [];
    var fan := if setting.wind == 1 then [FanLow] else if setting.wind == 2 then [FanMed]
               else if setting.wind == 3 then [FanHigh] else [];
    temp + fan
  }

  /** Reference sequence: the learned codes of `bs`, in order, with unlearned buttons left out. */
  function LearnedCodes(m: IRCodeMap, bs: seq<IRButton>): (codes: seq<string>)
    ensures |codes| == LearnedAmong(m, bs)
    ensures forall i :: 0 <= i < |codes| ==> |codes[i]| > 0
  {
    if |bs| == 0 then []
    else if |GetCode(m, bs[0])| > 0 then [GetCode(m, bs[0])] + LearnedCodes(m, bs[1..])
    else LearnedCodes(m, bs[1..])
  }

  /** The codes transmitted while pressing `bs` one after another. */
  function SendAll(s: IRSystem, bs: seq<IRButton>): (codes: seq<string>)
    ensures |codes| <= |bs|
    ensures !s.learning.isReadyForControl ==> codes == []
    ensures s.learning.isReadyForControl ==> codes == LearnedCodes(s.codes, bs)
    ensures s.learning.isReadyForControl ==> |codes| == LearnedAmong(s.codes, bs)
    ensures (forall i :: 0 <= i < |bs| ==> |GetCode(s.codes, bs[i])| > 0) && s.learning.isReadyForControl ==>
              |codes| == |bs| && forall i :: 0 <= i < |bs| ==> codes[i] == GetCode(s.codes, bs[i])
  {
    if |bs| == 0 then []
    else
      var rest := SendAll(s, bs[1..]);
      match SendIRButton(s, bs[0])
      case Some(code) => [code] + rest
      case None => rest
  }

  /** `applyACSetting`: nothing unless the IR system is ready, otherwise the learned codes
      of the selected buttons. */
  function ApplyACSetting(s: IRSystem, setting: ACSetting): (codes: seq<string>)
    ensures !s.learning.isReadyForControl ==> codes == []
    ensures |codes| <= |ButtonsFor(setting)|
    ensures s.learning.isReadyForControl ==> codes == LearnedCodes(s.codes, ButtonsFor(setting))
    ensures s.learning.isReadyForControl && (forall b :: b in ButtonsFor(setting) ==> |GetCode(s.codes, b)| > 0) ==>
              && |codes| == |ButtonsFor(setting)|
              && forall i :: 0 <= i < |codes| ==> codes[i] == GetCode(s.codes, ButtonsFor(setting)[i])
    ensures Consistent(s) && s.learning.isReadyForControl && (setting.temp > 24.0 || setting.temp < 20.0) ==>
              |codes| >= 1 && codes[0] == GetCode(s.codes, ButtonsFor(setting)[0])
  {
    if !s.learning.isReadyForControl then [] else SendAll(s, ButtonsFor(setting))
  }

  /** A ready map with only the five essential codes still raises the temperature: a 30.0
      setting with wind 0 sends the TEMP_UP code alone. */
  lemma FiveCodeMapRaisesTemperature()
    ensures var m := EMPTY_CODES.(powerOn := "A1", powerOff := "A2", tempUp := "A3", tempDown := "A4", fanLow := "A5");
            ApplyACSetting(IRSystem(m, map[], LearningState(false, 0, 5, BUTTON_COUNT, 0, true)), ACSetting(30.0, 0)) == ["A3"]
  {
  }
}

=== FILE: task_manager.dfy ===
/** Lifecycle bookkeeping of the calibration and AC control tasks (src/task_manager.cpp).
    Task creation is an input: `None` when the RTOS refuses, otherwise the new handle. The
    clock is the input `now`; task bodies and scheduling are not modelled. */
module TaskManager {
  import opened Wrappers
  import opened CTypes

  datatype TaskState = Stopped | Starting | Running | Stopping

  /** A task handle; `None` is the null handle. */
  type Handle = nat

  datatype TaskInfo = TaskInfo(handle: Option<Handle>, state: TaskState, startTime: uint32, endTime: uint32, name: string)

  datatype Manager = Manager(calibration: TaskInfo, control: TaskInfo)

  /** The result of a start or stop request: the new bookkeeping and the returned flag. */
  datatype Outcome = Outcome(info: TaskInfo, ok: bool)

  /** The constructor: both tasks stopped, null handles, zero times. */
  function NewManager(): (m: Manager)
    ensures m.calibration.state == Stopped && m.control.state == Stopped
    ensures m.calibration.handle.None? && m.control.handle.None?
  {
    Manager(TaskInfo(None, Stopped, 0, 0, "Calibration"), TaskInfo(None, Stopped, 0, 0, "AC Control"))
  }

  /** The common start sequence: refuse unless stopped; otherwise mark STARTING, stamp the
      start time, and end RUNNING with the new handle or STOPPED with a null handle. */
  function StartTask(t: TaskInfo, now: uint32, created: Option<Handle>): (r: Outcome)
    ensures t.state != Stopped ==> r == Outcome(t, false)
    ensures t.state == Stopped ==> r.info.startTime == now && r.info.endTime == t.endTime && r.info.name == t.name
    ensures t.state == Stopped && created.Some? ==> r.ok && r.info.state == Running && r.info.handle == created
    ensures t.state == Stopped && created.None? ==> !r.ok && r.info.state == Stopped && r.info.handle.None?
  {
    if t.state != Stopped then Outcome(t, false)
    else
      var starting := t.(state := Starting, startTime := now);
      match created
      case Some(h) => Outcome(starting.(state := Running, handle := Some(h)), true)
      case None => Outcome(starting.(state := Stopped, handle := None), false)
  }

  /** The common stop sequence: a stopped task is left exactly as it is; any other is deleted,
      its handle nulled, and its end time stamped. Stopping always reports success. */
  function StopTask(t: TaskInfo, now: uint32): (r: Outcome)
    ensures r.ok && r.info.state == Stopped
    ensures t.state == Stopped ==> r.info == t
    ensures t.state != Stopped ==> r.info.handle.None? && r.info.endTime == now
    ensures r.info.startTime == t.startTime && r.info.name == t.name
  {
    if t.state == Stopped then Outcome(t, true)
    else
      var stopping := t.(state := Stopping);
      var released := if stopping.handle.Some? then stopping.(handle := None) else stopping;
      Outcome(released.(state := Stopped, endTime := now), true)
  }

  /** `startCalibrationTask`. */
  function StartCalibrationTask(m: Manager, now: uint32, created: Option<Handle>): (r: (Manager, bool))
    ensures r.0.control == m.control
    ensures m.calibration.state != Stopped ==> r == (m, false)
    ensures r.1 <==> m.calibration.state == Stopped && created.Some?
    ensures r.1 ==> r.0.calibration.state == Running && r.0.calibration.handle == created
    ensures m.calibration.state == Stopped && created.None? ==>
              r.0.calibration.state == Stopped && r.0.calibration.handle.None? && r.0.calibration.startTime == now
  {
    var o := StartTask(m.calibration, now, created);
    (m.(calibration := o.info), o.ok)
  }

  /** `stopCalibrationTask`. */
  function StopCalibrationTask(m: Manager, now: uint32): (r: (Manager, bool))
    ensures r.1 && r.0.calibration.state == Stopped && r.0.control == m.control
    ensures m.calibration.state == Stopped ==> r.0 == m
    ensures m.calibration.state != Stopped ==> r.0.calibration.handle.None? && r.0.calibration.endTime == now
  {
    var o := StopTask(m.calibration, now);
    (m.(calibration := o.info), o.ok)
  }

  /** `startControlTask`: as for calibration, but also refused while the IR codes are not
      ready, before any bookkeeping changes. */
  function StartControlTask(m: Manager, irReady: bool, now: uint32, created: Option<Handle>): (r: (Manager, bool))
    ensures r.0.calibration == m.calibration
    ensures m.control.state != Stopped || !irReady ==> r == (m, false)
    ensures r.1 <==> m.control.state == Stopped && irReady && created.Some?
    ensures r.1 ==> r.0.control.state == Running && r.0.control.handle == created
    ensures m.control.state == Stopped && irReady && created.None? ==>
              r.0.control.state == Stopped && r.0.control.handle.None? && r.0.control.startTime == now
  {
    if m.control.state != Stopped then (m, false)
    else if !irReady then (m, false)
    else
      var o := StartTask(m.control, now, created);
      (m.(control := o.info), o.ok)
  }

  /** `stopControlTask`. */
  function StopControlTask(m: Manager, now: uint32): (r: (Manager, bool))
    ensures r.1 && r.0.control.state == Stopped && r.0.calibration == m.calibration
    ensures m.control.state == Stopped ==> r.0 == m
    ensures m.control.state != Stopped ==> r.0.control.handle.None? && r.0.control.endTime == now
  {
    var o := StopTask(m.control, now);
    (m.(control := o.info), o.ok)
  }

  /** The last bookkeeping write of a task body that returns: the state becomes STOPPED while
      the handle is left for `cleanupFinishedTasks`. */
  function TaskExited(t: TaskInfo): (t': TaskInfo)
    ensures t'.state == Stopped && t'.handle == t.handle
  {
    t.(state := Stopped)
  }

  /** `isControlTaskRunning`. */
  predicate IsControlTaskRunning(m: Manager) {
    m.control.state == Running
  }

  /** The control task reports running from a successful start until the next stop; a fresh
      manager and a refused or failed start report it as not running. */
  lemma ControlRunningLifecycle(m: Manager, irReady: bool, now: uint32, created: Option<Handle>, later: uint32)
    ensures !IsControlTaskRunning(NewManager())
    ensures IsControlTaskRunning(StartControlTask(m, irReady, now, created).0) <==>
              m.control.state == Running || (m.control.state == Stopped && irReady && created.Some?)
    ensures !IsControlTaskRunning(StopControlTask(m, later).0)
  {
  }

  /** `isAnyTaskRunning`: only the calibration task is consulted. */
  function IsAnyTaskRunning(m: Manager): (running: bool)
    ensures running <==> m.calibration.state in {Running, Starting}
  {
    m.calibration.state == Running || m.calibration.state == Starting
  }

  /** The control task never counts: a running control task alone is not "any task running". */
  lemma ControlTaskNotConsulted(m: Manager, c: TaskInfo)
    ensures IsAnyTaskRunning(m.(control := c)) == IsAnyTaskRunning(m)
    ensures m.calibration.state == Stopped && m.control.state == Running ==> !IsAnyTaskRunning(m)
  {
  }

  /** `cleanupFinishedTasks`: nulls the handles of stopped tasks; no state ever changes. */
  function CleanupFinishedTasks(m: Manager): (m': Manager)
    ensures m'.calibration.state == m.calibration.state && m'.control.state == m.control.state
    ensures m'.calibration == (if m.calibration.state == Stopped then m.calibration.(handle := None) else m.calibration)
    ensures m'.control == (if m.control.state == Stopped then m.control.(handle := None) else m.control)
  {
    var cal := if m.calibration.state == Stopped && m.calibration.handle.Some?
               then m.calibration.(handle := None) else m.calibration;
    var ctl := if m.control.state == Stopped && m.control.handle.Some?
               then m.control.(handle := None) else m.control;
    Manager(cal, ctl)
  }

  /** `getStateString`: a non-empty name that identifies its state. */
  function StateString(s: TaskState): (text: string)
    ensures |text| > 0
    ensures ParseStateString(text) == Some(s)
  {
    match s
    case Stopped => "stopped"
    case Starting => "starting"
    case Running => "running"
    case Stopping => "stopping"
  }

  /** Reference decoding of a status string back to a state. */
  function ParseStateString(text: string): Option<TaskState> {
    if text == "stopped" then Some(Stopped)
    else if text == "starting" then Some(Starting)
    else if text == "running" then Some(Running)
    else if text == "stopping" then Some(Stopping)
    else None
  }

  /** Stopping is idempotent and a second cleanup changes nothing. */
  lemma StopAndCleanupIdempotent(m: Manager, now: uint32, later: uint32)
    ensures StopCalibrationTask(StopCalibrationTask(m, now).0, later).0 == StopCalibrationTask(m, now).0
    ensures StopControlTask(StopControlTask(m, now).0, later).0 == StopControlTask(m, now).0
    ensures CleanupFinishedTasks(CleanupFinishedTasks(m)) == CleanupFinishedTasks(m)
  {
  }

  /** After any start attempt, a stop leaves the task stopped with a null handle; if the start
      succeeded the stop stamps the end time, so a full start/stop cycle is recorded. */
  lemma StartThenStop(m: Manager, irReady: bool, t1: uint32, created: Option<Handle>, t2: uint32)
    requires m.control.state == Stopped && m.control.handle.None?
    ensures var (m1, ok) := StartControlTask(m, irReady, t1, created);
            var m2 := StopControlTask(m1, t2).0;
            && m2.control.state == Stopped && m2.control.handle.None?
            && (ok ==> m2.control.startTime == t1 && m2.control.endTime == t2)
            && (!ok ==> m2.control.endTime == m.control.endTime)
  {
  }
}

=== FILE: wrappers.dfy ===
/** Optional values: the engine uses `None` for a failed sensor read (NaN in the firmware)
    and for "nothing transmitted". */
module Wrappers {

  datatype Option<+T> = None | Some(value: T)
}
